=== FILE: README.md ===
# Public health reports dashboard — a Dafny model

This project models the pure logic of a Next.js dashboard that shows monthly
communicable-disease reports for Cần Thơ. An administrator uploads one PDF
report per month. A generative model turns the PDF into a JSON record. The
record is default-filled and stored under its month label ("Tháng N"). The
viewer page then lets a user tick months. It folds the ticked months' records
into one aggregate and draws charts and a printable infographic from it.

The model covers five parts:

- **Month labels and their order** (`months.dfy`, module `Months`). A label's
  key is the number after "Tháng ". The page's comparator sorts by that key.
  The in-place JavaScript sorts are modelled as a stable insertion sort of a
  copy (`SortBy`, `SortByMonth`). The proofs show that sorting is a stable, key-ordered
  permutation. For canonical labels the result does not depend on the order
  in which months were ticked.
- **Aggregation on the viewer page** (`aggregation.dfy`, module `Aggregation`).
  This covers `aggregateData`: the fold over the sorted selection that skips
  months with no stored report. Each series is appended whole. The three
  composition entries and the five headline counts are summed, with missing
  values counted as 0. After the fold, `tongKham` is formatted in three tiers.
  The module also holds the checkbox toggle and the guard that decides whether
  anything is displayed. A found month without a `composition` makes the
  source throw a TypeError; the model returns `Failure(MissingComposition(month))`.
- **Extraction from a PDF** (`extraction.dfy`, module `Extraction`). This
  covers:
  - splitting the data URI with `^data:(.+);base64,(.+)$`: greedy, and `.`
    excludes line terminators;
  - finding the first fenced block with
    ```` /```json\s*([\s\S]*?)\s*```/ ````, and the three outcomes of
    `extractJson`;
  - the default filling that follows the parse;
  - how errors are wrapped.

  `JSON.parse` and the model call are parameters of the functions.
- **The infographic** (`infographic.dfy`, module `Infographic`). This covers:
  - the title and subtitle for the selected months;
  - the latest month and its two hotspot figures;
  - the doughnut's reversed data;
  - whether the hotspot card is shown.
- **The charts** (`charts.dfy`, module `Charts`). This covers the rows of the
  line chart, the slices of the composition pie, and the cyclic pie colours.

The other modules are support:

- `wrappers.dfy` holds `Option` and `Result`.
- `decimal.dfy` holds decimal digit strings: `Show` is `toString` of a natural
  number, `ParseNat` reads digits back.
- `report_data.dfy` holds the stored record `Report` and the pre-normalisation
  `PartialReport`. In `PartialReport` every top-level field and every extended
  trend series is optional.

## Model

| member | source | states |
|---|---|---|
| Months.MonthLabelKey | src/app/admin/page.tsx:109-114 | every label the upload form offers, "Tháng 1" to "Tháng 12", is canonical, and the comparator's key for it is its month number |
| Months.Key | src/app/page.tsx:49-53 | on a label that is "Tháng " followed by digits the key is the number they spell, leading zeros included; every other label gets key 0 |
| Months.SortBy | src/app/page.tsx:49-53 | the sort returns a permutation of its input that is ordered by the key |
| Months.SortByMonth | src/app/page.tsx:49-53 | the sorted selection is ascending by month number and holds exactly the selected labels with their multiplicities |
| Months.SortByMonthMembers | src/app/page.tsx:49-53 | a label is in the sorted selection exactly when it was selected |
| Months.InsertWithKey | src/app/page.tsx:49-53 | inserting a label into a sorted sequence puts it in front of every label with the same key and keeps their order |
| Months.SortByStable | src/app/page.tsx:49-53 | the sort is stable: for every key, the labels with that key appear in the result in the order they had in the input |
| Months.SortedPermutationUnique | src/app/page.tsx:49-53 | two key-ordered permutations of labels with pairwise distinct keys are the same sequence |
| Months.SortOrderIndependent | src/app/page.tsx:49-53 | for canonical labels, sorting gives the same sequence whatever order the months were ticked in |
| Months.SortedStartsEarliest | src/components/infographic-template.tsx:29-35 | for canonical labels the first sorted month is the selected month with the smallest number |
| Months.SortedEndsLatest | src/components/infographic-template.tsx:29-36 | for canonical labels the last sorted month is the selected month with the largest number |
| Aggregation.AddMonth | src/app/page.tsx:56-77 | one reduce step fails exactly when the month's report has no composition, naming that month; otherwise it appends the month to the labels and the month's whole series to each series, and adds the month's composition entries and headline counts, missing ones as 0 |
| Aggregation.Fold | src/app/page.tsx:55-78 | the reduce keeps the three composition names and entries; a failure names a listed, stored month without a composition |
| Aggregation.FoldOutcome | src/app/page.tsx:55-78 | the fold fails exactly when some found month has no composition, and the error names the first such month |
| Aggregation.FoldLabels | src/app/page.tsx:55-60 | the fold appends the found months, in order, to the accumulator's labels and skips months with no stored report |
| Aggregation.FoldSeries | src/app/page.tsx:59-63 | each disease series of the fold is the accumulator's series followed by every found month's whole series, in order |
| Aggregation.FoldComposition | src/app/page.tsx:65-68 | each composition entry of the fold is the accumulator's entry plus the found months' entries, a missing entry counted as 0 |
| Aggregation.FoldHighlights | src/app/page.tsx:70-75 | each of the five counts is the accumulator's count plus the found months' counts, a missing count counted as 0, and `tongKham` is untouched |
| Aggregation.Combine | src/app/page.tsx:55-87 | folding months that are already in display order succeeds exactly when every stored month among them has a composition; a failure names such a month |
| Aggregation.Aggregate | src/app/page.tsx:42-90 | aggregation succeeds exactly when every selected month that is stored has a composition; a failure names a selected, stored month without one |
| Aggregation.AggregateTrends | src/app/page.tsx:59-63 | the labels are the found months in sorted order, and each series is the concatenation of their series in that order |
| Aggregation.AggregateLabels | src/app/page.tsx:49-60 | the labels are ascending by month number and are exactly the selected months that are stored, each as often as it was selected |
| Aggregation.ConcatLength | src/app/page.tsx:61-63 | when every stored series has at least one entry, a concatenated series is at least as long as the labels, and equally long exactly when every stored series has one entry |
| Aggregation.ConcatOfSingles | src/app/page.tsx:59-63 | when every stored series has one entry, entry `i` of the concatenation is the `i`-th found month's value |
| Aggregation.AggregateComposition | src/app/page.tsx:65-68 | the composition keeps the three fixed names and each entry is the sum over the found months |
| Aggregation.AggregateHighlights | src/app/page.tsx:70-87 | each headline count is the sum over the found months, and `tongKham` is the formatted total of `tongKhamSo` |
| Aggregation.NothingStored | src/app/page.tsx:42-90 | a selection with no stored month aggregates to empty series, composition `[0, 0, 0]`, zero counts and `tongKham` "0" |
| Aggregation.AggregateOrderIndependent | src/app/page.tsx:49-78 | for canonical labels the aggregate does not depend on the order in which the months were ticked |
| Aggregation.Fixed | src/app/page.tsx:82-84 | the fixed-point text of a scaled value reads back, with its decimal point, as that value, and its whole part has no leading zero unless it is 0 |
| Aggregation.LeadingZeroRejected | src/app/page.tsx:82-84 | a whole part with a leading zero, as in "01.23", is not read as fixed-point text, while "0.23" is |
| Aggregation.FormatMillions | src/app/page.tsx:81-82 | the text ends in "tr", and the two-decimal number before the suffix, with no leading zero, is the count in millions, rounded to the nearest hundredth |
| Aggregation.FormatThousands | src/app/page.tsx:83-84 | the text ends in "k", and the one-decimal number before the suffix, with no leading zero, is the count in thousands, rounded to the nearest tenth |
| Aggregation.FormatTongKham | src/app/page.tsx:80-87 | the tier is chosen exactly: millions with "tr" from 1,000,000, thousands with "k" from 1,000, each without a leading zero, otherwise the integer's own digits, which read back as the count and have no leading zero |
| Aggregation.TongKhamMillionsExample | src/app/page.tsx:81-82 | 1,234,567 is shown as "1.23tr" |
| Aggregation.TongKhamThousandsExample | src/app/page.tsx:83-84 | 4,500 is shown as "4.5k" |
| Aggregation.TongKhamPlainExample | src/app/page.tsx:85-86 | 42 is shown as "42" |
| Decimal.ShowInt | src/app/page.tsx:86 | an integer's text is its decimal digits, preceded by a minus sign when negative, and the digits read back as its magnitude with no leading zero |
| Aggregation.ToggleMonth | src/app/page.tsx:95-103 | checking appends the month at the end; unchecking leaves no occurrence of it; every other month keeps its multiplicity |
| Aggregation.Without | src/app/page.tsx:100 | the filter removes every occurrence of the month and keeps every other entry with its multiplicity |
| Aggregation.WithoutConcat | src/app/page.tsx:100 | the filter keeps the remaining entries in their original order |
| Aggregation.CheckThenUncheck | src/app/page.tsx:95-103 | checking a month and then unchecking it gives the same selection as unchecking it alone |
| Aggregation.UncheckAbsent | src/app/page.tsx:99-101 | unchecking a month that is not selected leaves the selection unchanged |
| Aggregation.DisplayData | src/app/page.tsx:36-40 | nothing is displayed exactly when the reports are not loaded or no month is selected; displayed labels are selected, stored months |
| Extraction.Find | src/ai/flows/extract-data-from-pdf.ts:8-9 | the search returns the first occurrence at or after the start position, and no occurrence exists when it returns none |
| Extraction.LastSplit | src/ai/flows/extract-data-from-pdf.ts:34 | the greedy capture stops at the last ";base64," that leaves a non-empty mime type and a non-empty payload |
| Extraction.IsDataUri | src/ai/flows/extract-data-from-pdf.ts:34 | the strings the pattern matches: they start with "data:", hold no line terminator and are long enough for a non-empty mime type, the marker and a non-empty payload |
| Extraction.ParseDataUri | src/ai/flows/extract-data-from-pdf.ts:34-39 | the split succeeds exactly when the URI matches the pattern; it fails with "Invalid data URI format"; on success both parts are non-empty, rebuild the URI, and the split is the last one possible |
| Extraction.DataUriRoundTrip | src/ai/flows/extract-data-from-pdf.ts:34-39 | a URI built from a non-empty single-line mime type and a payload without ';' splits back into the same two parts |
| Extraction.SkipSpaces | src/ai/flows/extract-data-from-pdf.ts:8 | the position after the opening fence passes only whitespace and stops at the first non-whitespace character |
| Extraction.TrimEnd | src/ai/flows/extract-data-from-pdf.ts:8 | the capture end drops exactly the whitespace run before the closing fence |
| Extraction.FencedPayload | src/ai/flows/extract-data-from-pdf.ts:8-9 | a payload is found exactly when an opening fence is followed by a closing fence; it is the text between the whitespace after the first opening fence and the whitespace before the first closing fence after that; it contains no closing fence and has no whitespace at either end |
| Extraction.FencedPayloadAt | src/ai/flows/extract-data-from-pdf.ts:8-9 | wherever the first opening fence and the next closing fence lie, with any characters, backticks included, around them, the capture is exactly the text between their whitespace runs |
| Extraction.NoOpeningFence | src/ai/flows/extract-data-from-pdf.ts:8-11 | text without an opening fence has no block |
| Extraction.NoClosingFence | src/ai/flows/extract-data-from-pdf.ts:8-11 | if no closing fence follows the first opening fence, no block exists anywhere in the text |
| Extraction.FencedPayloadRoundTrip | src/ai/flows/extract-data-from-pdf.ts:8-9 | a trimmed payload with no backtick, after text with no backtick, wrapped in an opening fence, whitespace and a closing fence, is found again exactly |
| Extraction.ExtractJson | src/ai/flows/extract-data-from-pdf.ts:7-23 | no block or an empty capture fails with the missing-block error; for a non-empty capture it succeeds exactly when the parse accepts the capture, returns the parsed value, and otherwise fails with the invalid-JSON error |
| Extraction.BlankBlock | src/ai/flows/extract-data-from-pdf.ts:11-14 | a block holding only whitespace is reported as a missing block |
| Extraction.BlockParsed | src/ai/flows/extract-data-from-pdf.ts:16-22 | a block whose payload is non-empty, trimmed and free of backticks, after text with no backtick, yields the parse of its payload, or the invalid-JSON error when the parse fails |
| Extraction.Normalise | src/ai/flows/extract-data-from-pdf.ts:154-195 | missing trends fail; missing highlights, accidents and additional diseases become zeros; present ones are kept, except that `tongKham` is cleared; a missing extended series becomes `[0]`; the base series and composition are never changed |
| Extraction.NormaliseFixedPoint | src/ai/flows/extract-data-from-pdf.ts:154-195 | a complete record with `tongKham` already cleared comes through the default filling unchanged |
| Extraction.NormaliseIdempotent | src/ai/flows/extract-data-from-pdf.ts:154-195 | default-filling an already filled record returns it unchanged |
| Extraction.Process | src/ai/flows/extract-data-from-pdf.ts:148-195 | an empty answer fails; every failure is one of the four in-try causes; a non-empty answer whose block parses succeeds exactly when the parsed object has trends, and is then its filled parse; a block failure is passed on unchanged |
| Extraction.Wrapped | src/ai/flows/extract-data-from-pdf.ts:199-205 | an Error is rethrown as the fixed prefix followed by its message; anything else gives the fixed unknown-error message |
| Extraction.WrappedNotInvalidUri | src/ai/flows/extract-data-from-pdf.ts:199-205 | no wrapped error reads "Invalid data URI format" |
| Extraction.WrappedDistinguishes | src/ai/flows/extract-data-from-pdf.ts:199-205 | the wrapped messages of the fixed failure causes are pairwise distinct |
| Extraction.ExtractDataFromPdf | src/ai/flows/extract-data-from-pdf.ts:32-206 | a bad URI gives the unwrapped URI error; for a valid URI a throw of the call is wrapped, and the later steps' success is returned as the report and their failure wrapped |
| Extraction.ExtractEndToEnd | src/ai/flows/extract-data-from-pdf.ts:32-206 | a URI built from a mime type and a payload reaches the model with those two parts, and an answer the later steps accept comes back as the report |
| Extraction.ExtractFromCapture | src/ai/flows/extract-data-from-pdf.ts:7-206 | when the answer's block captures a non-empty payload whose parse has trends, the result is that parse with its defaults filled in |
| Extraction.FailuresWrapped | src/ai/flows/extract-data-from-pdf.ts:199-205 | a failure past the URI check carries the unknown-error message exactly when the call threw a non-Error; otherwise it starts with the fixed prefix |
| Extraction.EmptyAnswer | src/ai/flows/extract-data-from-pdf.ts:148-150 | an empty answer fails with the prefix followed by the empty-response message |
| Extraction.TrendsMissing | src/ai/flows/extract-data-from-pdf.ts:191 | a parsed record without trends fails with the prefix followed by the TypeError of reading `dauMuaKhi` |
| Infographic.TitleText | src/components/infographic-template.tsx:26-38 | the title is the fixed no-data text exactly for no selection; otherwise it is the fixed lead, the month label (or the first label, the separator and the last label) and the fixed tail, each found again at its offset |
| Infographic.TitleTextInjective | src/components/infographic-template.tsx:26-38 | one-month titles differ for different months, and so do range titles whose first labels have equal lengths |
| Infographic.Title | src/components/infographic-template.tsx:25-39 | no selection, one month as selected, or a range whose ends are selected months of least and greatest number |
| Infographic.TitleRange | src/components/infographic-template.tsx:29-38 | for canonical labels the range runs from the earliest to the latest selected month |
| Infographic.TitleOrderIndependent | src/components/infographic-template.tsx:29-38 | for canonical labels the title does not depend on the order the months were ticked in |
| Infographic.Subtitle | src/components/infographic-template.tsx:41-45 | a prompt, the one selected month, or a count without leading zero that reads back as the number of selected months |
| Infographic.SubtitleCountInjective | src/components/infographic-template.tsx:41-45 | summary subtitles for different numbers of months differ |
| Infographic.DescendingSorted | src/components/infographic-template.tsx:206-210 | ordering by the comparator's key is exactly ordering by descending month number |
| Infographic.LatestMonth | src/components/infographic-template.tsx:206-210 | nothing exactly when the selection is empty, otherwise a selected month whose number no other selected month exceeds |
| Infographic.LatestMonthIsLatest | src/components/infographic-template.tsx:206-210 | for canonical labels the descending sort's head is the latest selected month |
| Infographic.IndexOf | src/components/infographic-template.tsx:212 | the first index holding the label, and none exactly when the label is absent |
| Infographic.LatestMonthData | src/components/infographic-template.tsx:204-219 | zeros when nothing is selected or the latest month is not charted; otherwise the two series' entries at the month's first position, a missing entry read as 0 |
| Infographic.LatestOfAggregate | src/components/infographic-template.tsx:204-219 | over the page's aggregate of one-entry months, the hotspot figures are the latest month's stored counts, or zeros when it is not stored |
| Infographic.DoughnutData | src/components/infographic-template.tsx:175 | slice `2 - i` of the doughnut is composition entry `i`, missing past the end of the data |
| Infographic.DoughnutLabelsMatch | src/components/infographic-template.tsx:172-175 | each doughnut slice's legend names the disease whose composition entry it shows |
| Infographic.DoughnutOfAggregate | src/components/infographic-template.tsx:172-175 | over the page's aggregate, each slice is present and is its disease's summed entry |
| Infographic.HotspotVisible | src/components/infographic-template.tsx:254 | the hotspot card is shown exactly when there is a latest month |
| Charts.TrendRows | src/components/charts/trends-chart.tsx:16-23 | one row per label, in label order; row `i` is named by label `i` and holds entry `i` of each series, missing past its end |
| Charts.TrendRowsRoundTrip | src/components/charts/trends-chart.tsx:16-23 | series as long as the labels are recovered exactly from the rows |
| Charts.ShortSeriesMissing | src/components/charts/trends-chart.tsx:16-22 | a short series leaves later values missing and does not drop rows |
| Charts.ExtraEntriesDropped | src/components/charts/trends-chart.tsx:16-22 | series entries beyond the labels do not change the rows |
| Charts.AggregateRows | src/components/charts/trends-chart.tsx:16-22 | over the page's aggregate of one-entry months every row is complete and holds its month's stored value |
| Charts.SeriesKeysMatchDoughnut | src/components/charts/trends-chart.tsx:19-21 | the line chart's key for a disease is the infographic doughnut's label for it |
| Charts.Slices | src/components/charts/composition-chart.tsx:16-21 | one slice per label, in label order; slice `i` is named by label `i` and holds entry `i`, missing past the end |
| Charts.SlicesRoundTrip | src/components/charts/composition-chart.tsx:16-21 | a composition with one entry per label is recovered exactly from its slices |
| Charts.ExtraSlicesDropped | src/components/charts/composition-chart.tsx:16-21 | entries beyond the labels do not change the slices |
| Charts.AggregateSlices | src/components/charts/composition-chart.tsx:16-21 | the aggregate's pie has the three disease names, each with its summed entry |
| Charts.CellColor | src/components/charts/composition-chart.tsx:49-51 | each cell is filled with a palette colour |
| Charts.CellColorsCycle | src/components/charts/composition-chart.tsx:49-51 | cell colours repeat every three cells, and any three consecutive cells differ |
| Charts.LineColor | src/components/charts/trends-chart.tsx:52-54 | each disease line is drawn in the palette colour at its composition index: chart-1, chart-2 and chart-3 |
| Charts.SliceColorMatchesLine | src/components/charts/composition-chart.tsx:14 | the pie cell at a disease's composition index has the colour of that disease's line |

## Left out

- Persistence: the Firestore reads and writes that load and store the reports are network I/O. The stored reports are a `map` parameter.
- The generative-model call and its prompt: these are a foreign call. `ExtractDataFromPdf` takes the call as a parameter that returns the answer text or the thrown value.
- `JSON.parse`: a foreign parser. It is a parameter returning an optional `PartialReport`. JSON values that are not objects, and fields of the wrong type, are outside the model.
- Missing mandatory fields: `PartialReport` always holds `trends.labels`, `trends.sxh`, `trends.tcm`, `trends.soi` and `composition.data`. A parsed answer without one of them cannot be represented. A stored report without `trends.sxh`, `trends.tcm` or `trends.soi` makes the page's fold throw a TypeError when it spreads the undefined series, and one without `composition.data` makes it throw when it indexes the undefined array. The fold never reads `trends.labels`: it pushes the report's month instead, so a missing `labels` does not throw there. The throws are not modelled.
- Non-integer numbers: counts and series entries are unbounded integers. JavaScript numbers can be fractional (a `tongKhamSo` of 999.5 prints "999.5"), NaN (which `|| 0` turns into 0) or beyond the safe-integer range. None of these is modelled.
- Extraction.Normalise: `trends: null` in the parsed JSON throws a TypeError whose message says "null" rather than "undefined". The model has one `MissingTrends` cause with the "undefined" message.
- Extraction.WrappedDistinguishes: excludes errors raised by the model call itself. Their messages come from the SDK and could coincide with a fixed message.
- Aggregation.FormatTongKham: `toFixed` rounds the binary floating-point quotient. The model rounds the exact rational value half-up, so the digits can differ on exact ties. The tier and the suffix are exact.
- Aggregation.FormatMillions: the same tie caveat applies. For 1,005,000 the quotient 1.005 is stored just below 1.005, so `toFixed(2)` gives "1.00tr" while the model gives "1.01tr".
- Aggregation.FormatThousands: the same tie caveat applies to `toFixed(1)` on the quotient in thousands.
- Months.Key: agrees with the source's `parseInt` only on labels that are "Tháng " followed by digits. Other labels get 0 in the model. In the source, `replace` drops the first occurrence of the prefix wherever it is. `parseInt` then skips leading spaces, reads a sign and stops at the first non-digit ("Tháng 3a" gives 3, "Tháng -3" gives -3), or gives NaN.
- Months.SortOrderIndependent: requires canonical "Tháng N" labels, because `Key` departs from the source on other labels and a NaN comparison leaves the JavaScript sort order unspecified.
- Aggregation.AggregateOrderIndependent: requires canonical labels, for the same reason.
- Infographic.TitleOrderIndependent: requires canonical labels, for the same reason.
- Infographic.LatestOfAggregate: stated only for stored months holding one entry per series. With longer series the entry at the label's index belongs to an earlier month.
- Charts.AggregateRows: stated only for months holding one entry per series, for the same reason.
- In-place sorting: the page, the title and the latest-month lookup all sort the selection in place. The model sorts a copy. With canonical labels all three orders depend only on the selected set.
- Charts, the summary table, stat cards, the header and the infographic's chart lifecycle only render; beyond the rows, slices and colours above they are not modelled. That includes the percentages, which are never recomputed.
- The server action and form plumbing of the upload page: file buffering, base64 conversion and toasts are I/O around the extraction.
- The console logging in the error paths has no effect on results.


=== FILE: aggregation.dfy ===
/**
  The viewer page (src/app/page.tsx): folding the selected months' stored
  reports into one record for display, the `tongKham` display string, the
  month-checkbox toggle and the guard that decides whether anything is shown.
*/
module Aggregation {
  import opened Wrappers
  import opened Decimal
  import opened ReportData
  import opened Months

  /** The aggregate's series: only the three tracked diseases, no extended series. */
  datatype TrendSeries = TrendSeries(labels: seq<string>, sxh: seq<int>, tcm: seq<int>, soi: seq<int>) {
    function Series(d: Disease): seq<int> {
      match d
      case Sxh => sxh
      case Tcm => tcm
      case Soi => soi
    }
  }

  /** Summed headline counts and their display string. */
  datatype Totals = Totals(tongKham: string, tongKhamSo: int, khamNoiTru: int, tieuChay: int, hiv: int, naoMoCau: int)

  /** The record the page builds: it never carries accidents or additional diseases. */
  datatype Aggregated = Aggregated(trends: TrendSeries, composition: Composition, highlights: Totals)

  /** A found month whose stored report has no `composition`: the fold throws a TypeError there. */
  datatype AggregateError = MissingComposition(month: string)

  /** The five headline counts. */
  datatype Count = TongKhamSo | KhamNoiTru | TieuChay | Hiv | NaoMoCau

  /** `v || 0`: a missing count contributes nothing. */
  function OrZero(v: Option<int>): int {
    v.GetOr(0)
  }

  /** `s[i] || 0`: an entry past the end of the array contributes nothing. */
  function EntryOrZero(s: seq<int>, i: nat): int {
    if i < |s| then s[i] else 0
  }

  /** `s[i]` as a chart reads it: missing (undefined) past the end of the array. */
  function EntryAt(s: seq<int>, i: nat): Option<int> {
    if i < |s| then Some(s[i]) else None
  }

  /** A stored month's value of a headline count, 0 when absent. */
  function CountOf(r: Report, c: Count): int {
    match c
    case TongKhamSo => OrZero(r.highlights.tongKhamSo)
    case KhamNoiTru => OrZero(r.highlights.khamNoiTru)
    case TieuChay => OrZero(r.highlights.tieuChay)
    case Hiv => OrZero(r.highlights.hiv)
    case NaoMoCau => OrZero(r.highlights.naoMoCau)
  }

  function TotalOf(t: Totals, c: Count): int {
    match c
    case TongKhamSo => t.tongKhamSo
    case KhamNoiTru => t.khamNoiTru
    case TieuChay => t.tieuChay
    case Hiv => t.hiv
    case NaoMoCau => t.naoMoCau
  }

  /** A stored month's composition entry for a disease, 0 when absent. */
  function CompositionOf(r: Report, d: Disease): int {
    match r.composition
    case Some(c) => EntryOrZero(c.data, d.Index())
    case None => 0
  }

  /** The accumulator the fold starts from. */
  const Initial: Aggregated :=
    Aggregated(TrendSeries([], [], [], []), Composition(CompositionLabels, [0, 0, 0]), Totals("", 0, 0, 0, 0, 0))

  /** One step of the reduce: a found month's report added to the accumulator. */
  function AddMonth(acc: Aggregated, month: string, report: Report): (r: Result<Aggregated, AggregateError>)
    requires |acc.composition.data| == 3
    ensures r.Failure? <==> report.composition.None?
    ensures r.Failure? ==> r.error == MissingComposition(month)
    ensures r.Success? ==>
      var a := r.value;
      && a.trends.labels == acc.trends.labels + [month]
      && (forall d: Disease :: a.trends.Series(d) == acc.trends.Series(d) + report.Series(d))
      && a.composition.labels == acc.composition.labels && |a.composition.data| == 3
      && (forall d: Disease :: a.composition.data[d.Index()] == acc.composition.data[d.Index()] + CompositionOf(report, d))
      && (forall c: Count :: TotalOf(a.highlights, c) == TotalOf(acc.highlights, c) + CountOf(report, c))
      && a.highlights.tongKham == acc.highlights.tongKham
  {
    match report.composition
    case None => Failure(MissingComposition(month))
    case Some(c) =>
      var h := acc.highlights;
      Success(Aggregated(
        TrendSeries(
          acc.trends.labels + [month],
          acc.trends.sxh + report.trends.sxh,
          acc.trends.tcm + report.trends.tcm,
          acc.trends.soi + report.trends.soi),
        Composition(
          acc.composition.labels,
          [ acc.composition.data[0] + EntryOrZero(c.data, 0),
            acc.composition.data[1] + EntryOrZero(c.data, 1),
            acc.composition.data[2] + EntryOrZero(c.data, 2) ]),
        Totals(
          h.tongKham,
          h.tongKhamSo + CountOf(report, TongKhamSo),
          h.khamNoiTru + CountOf(report, KhamNoiTru),
          h.tieuChay + CountOf(report, TieuChay),
          h.hiv + CountOf(report, Hiv),
          h.naoMoCau + CountOf(report, NaoMoCau))))
  }

  /** The reduce over the months in order; a month without a stored report is skipped. */
  function Fold(acc: Aggregated, months: seq<string>, reports: map<string, Report>): (r: Result<Aggregated, AggregateError>)
    requires |acc.composition.data| == 3
    ensures r.Success? ==> r.value.composition.labels == acc.composition.labels && |r.value.composition.data| == 3
    ensures r.Failure? ==> r.error.month in months && r.error.month in reports && reports[r.error.month].composition.None?
    decreases |months|
  {
    if |months| == 0 then Success(acc)
    else if months[0] !in reports then Fold(acc, months[1..], reports)
    else
      match AddMonth(acc, months[0], reports[months[0]])
      case Failure(e) => Failure(e)
      case Success(next) => Fold(next, months[1..], reports)
  }

  // Reference definitions, one per output field, independent of the fold.

  /** The months that have a stored report, in the given order. */
  function Found(months: seq<string>, reports: map<string, Report>): (r: seq<string>)
    ensures forall m :: m in r ==> m in months && m in reports
    decreases |months|
  {
    if |months| == 0 then []
    else
      var rest := Found(months[1..], reports);
      assert forall m :: m in rest ==> m in months;
      (if months[0] in reports then [months[0]] else []) + rest
  }

  /** The found months' whole series for a disease, one after another. */
  function Concat(months: seq<string>, reports: map<string, Report>, d: Disease): seq<int>
    decreases |months|
  {
    if |months| == 0 then []
    else (if months[0] in reports then reports[months[0]].Series(d) else []) + Concat(months[1..], reports, d)
  }

  /** The sum of a headline count over the found months. */
  function Total(months: seq<string>, reports: map<string, Report>, c: Count): int
    decreases |months|
  {
    if |months| == 0 then 0
    else (if months[0] in reports then CountOf(reports[months[0]], c) else 0) + Total(months[1..], reports, c)
  }

  /** The sum of a disease's composition entry over the found months. */
  function CompositionTotal(months: seq<string>, reports: map<string, Report>, d: Disease): int
    decreases |months|
  {
    if |months| == 0 then 0
    else (if months[0] in reports then CompositionOf(reports[months[0]], d) else 0) + CompositionTotal(months[1..], reports, d)
  }

  /** The first found month whose report has no composition. */
  function FirstUncomposed(months: seq<string>, reports: map<string, Report>): (r: Option<string>)
    ensures r.Some? ==> r.value in months && r.value in reports && reports[r.value].composition.None?
    ensures r.None? <==> forall m :: m in months && m in reports ==> reports[m].composition.Some?
    decreases |months|
  {
    if |months| == 0 then None
    else if months[0] in reports && reports[months[0]].composition.None? then Some(months[0])
    else
      var r := FirstUncomposed(months[1..], reports);
      assert forall m :: m in months ==> m == months[0] || m in months[1..];
      r
  }

  /** The fold fails exactly at the first found month without a composition. */
  lemma {:induction false} FoldOutcome(acc: Aggregated, months: seq<string>, reports: map<string, Report>)
    requires |acc.composition.data| == 3
    ensures Fold(acc, months, reports).Failure? <==> FirstUncomposed(months, reports).Some?
    ensures Fold(acc, months, reports).Failure? ==>
      Fold(acc, months, reports).error == MissingComposition(FirstUncomposed(months, reports).value)
    decreases |months|
  {
    if |months| > 0 {
      if months[0] !in reports {
        FoldOutcome(acc, months[1..], reports);
      } else {
        var step := AddMonth(acc, months[0], reports[months[0]]);
        if step.Success? {
          FoldOutcome(step.value, months[1..], reports);
        }
      }
    }
  }

  /** A successful fold appends the found months to the labels, in order. */
  lemma {:induction false} FoldLabels(acc: Aggregated, months: seq<string>, reports: map<string, Report>)
    requires |acc.composition.data| == 3
    ensures var out := Fold(acc, months, reports);
      out.Success? ==> out.value.trends.labels == acc.trends.labels + Found(months, reports)
    decreases |months|
  {
    if |months| == 0 {
      assert acc.trends.labels + [] == acc.trends.labels;
    } else if months[0] !in reports {
      FoldLabels(acc, months[1..], reports);
    } else {
      var step := AddMonth(acc, months[0], reports[months[0]]);
      if step.Success? {
        FoldLabels(step.value, months[1..], reports);
        var tail := Found(months[1..], reports);
        assert Found(months, reports) == [months[0]] + tail;
        assert (acc.trends.labels + [months[0]]) + tail == acc.trends.labels + ([months[0]] + tail);
      }
    }
  }

  /** A successful fold appends the found months' whole series for a disease, in order. */
  lemma {:induction false} FoldSeries(acc: Aggregated, months: seq<string>, reports: map<string, Report>, d: Disease)
    requires |acc.composition.data| == 3
    ensures var out := Fold(acc, months, reports);
      out.Success? ==> out.value.trends.Series(d) == acc.trends.Series(d) + Concat(months, reports, d)
    decreases |months|
  {
    if |months| == 0 {
      assert acc.trends.Series(d) + [] == acc.trends.Series(d);
    } else if months[0] !in reports {
      FoldSeries(acc, months[1..], reports, d);
      assert Concat(months, reports, d) == [] + Concat(months[1..], reports, d);
    } else {
      var step := AddMonth(acc, months[0], reports[months[0]]);
      if step.Success? {
        var next := step.value;
        assert Fold(acc, months, reports) == Fold(next, months[1..], reports);
        FoldSeries(next, months[1..], reports, d);
        var head, tail := reports[months[0]].Series(d), Concat(months[1..], reports, d);
        AddMonthSeries(acc, months[0], reports[months[0]], d);
        assert Concat(months, reports, d) == head + tail;
        assert (acc.trends.Series(d) + head) + tail == acc.trends.Series(d) + (head + tail);
      }
    }
  }

  /** Adding a month appends its whole series for each disease. */
  lemma AddMonthSeries(acc: Aggregated, month: string, report: Report, d: Disease)
    requires |acc.composition.data| == 3
    requires AddMonth(acc, month, report).Success?
    ensures AddMonth(acc, month, report).value.trends.Series(d) == acc.trends.Series(d) + report.Series(d)
  {
  }

  /** A successful fold adds the found months' composition entries and keeps the names. */
  lemma {:induction false} FoldComposition(acc: Aggregated, months: seq<string>, reports: map<string, Report>)
    requires |acc.composition.data| == 3
    ensures var out := Fold(acc, months, reports);
      out.Success? ==>
        && out.value.composition.labels == acc.composition.labels
        && |out.value.composition.data| == 3
        && forall d: Disease :: out.value.composition.data[d.Index()]
                                == acc.composition.data[d.Index()] + CompositionTotal(months, reports, d)
    decreases |months|
  {
    if |months| > 0 {
      if months[0] !in reports {
        FoldComposition(acc, months[1..], reports);
      } else {
        var step := AddMonth(acc, months[0], reports[months[0]]);
        if step.Success? {
          FoldComposition(step.value, months[1..], reports);
        }
      }
    }
  }

  /** A successful fold adds the found months' headline counts and keeps the display string. */
  lemma {:induction false} FoldHighlights(acc: Aggregated, months: seq<string>, reports: map<string, Report>)
    requires |acc.composition.data| == 3
    ensures var out := Fold(acc, months, reports);
      out.Success? ==>
        && out.value.highlights.tongKham == acc.highlights.tongKham
        && forall c: Count :: TotalOf(out.value.highlights, c) == TotalOf(acc.highlights, c) + Total(months, reports, c)
    decreases |months|
  {
    if |months| > 0 {
      if months[0] !in reports {
        FoldHighlights(acc, months[1..], reports);
      } else {
        var step := AddMonth(acc, months[0], reports[months[0]]);
        if step.Success? {
          FoldHighlights(step.value, months[1..], reports);
        }
      }
    }
  }

  /**
    Reads "digits.digits" with `places` digits after the point as a whole
    number of units of 10^-places: "1.23" with two places reads as 123. The
    whole part is written as `toFixed` writes it, without a leading zero
    unless it is "0" itself, so "01.23" does not read.
  */
  function ReadFixed(s: string, places: nat): Option<int> {
    if |s| > places + 1 && s[|s| - places - 1] == '.'
       && AllDigits(s[..|s| - places - 1]) && AllDigits(s[|s| - places..])
       && (s[0] == '0' ==> |s| == places + 2)
    then Some(Value(s[..|s| - places - 1] + s[|s| - places..]))
    else None
  }

  /** Whole digits, a point and fraction digits read back as all the digits together. */
  lemma ReadFixedParts(digits: string, fraction: string)
    requires |digits| > 0 && AllDigits(digits) && AllDigits(fraction)
    requires digits[0] == '0' ==> |digits| == 1
    ensures ReadFixed(digits + "." + fraction, |fraction|) == Some(Value(digits + fraction))
  {
    var s := digits + "." + fraction;
    var k := |digits|;
    assert |s| == k + 1 + |fraction|;
    assert s[k] == '.';
    assert s[..k] == digits;
    assert s[k + 1..] == fraction;
    assert s[0] == digits[0];
  }

  /** `value` units of 10^-places: a whole part, a point, then `places` digits. */
  function Fixed(value: nat, places: nat): (r: string)
    ensures ReadFixed(r, places) == Some(value)
    ensures r[0] == '0' ==> r[1] == '.'
  {
    var unit := Pow10(places);
    FixedValue(value, unit);
    var whole: nat, rest: nat := value / unit, value % unit;
    FixedRead(whole, rest, places, value);
    Show(whole) + "." + Digits(rest, places)
  }

  lemma FixedValue(value: nat, unit: nat)
    requires unit > 0
    ensures value / unit >= 0 && 0 <= value % unit < unit
    ensures (value / unit) * unit + value % unit == value
  {
  }

  /** The whole part, a point and the fraction digits read back as the value they were made from. */
  lemma FixedRead(whole: nat, rest: nat, places: nat, value: nat)
    requires rest < Pow10(places)
    requires value == whole * Pow10(places) + rest
    ensures ReadFixed(Show(whole) + "." + Digits(rest, places), places) == Some(value)
  {
    var digits, fraction := Show(whole), Digits(rest, places);
    ShowLeadingZero(whole);
    ReadFixedParts(digits, fraction);
    ValueOfShow(whole);
    ValueConcat(digits, fraction);
    var p := Pow10(places);
    assert Value(digits + fraction) == Value(digits) * p + Value(fraction);
    assert Value(digits) * p == whole * p;
  }

  /** Rounding to the nearest multiple of `unit`, a half going up, lands within half a unit. */
  lemma NearestUnit(v: int, unit: nat, n: int)
    requires unit > 0 && unit % 2 == 0
    requires n == (v + unit / 2) / unit
    ensures n * unit - unit / 2 <= v < n * unit + unit / 2
  {
  }

  /** `body` followed by `suffix`, where `body` reads as `value` with `places` decimals. */
  lemma SuffixedFixed(body: string, suffix: string, places: nat, value: int)
    requires ReadFixed(body, places) == Some(value)
    ensures |body + suffix| >= |suffix|
    ensures (body + suffix)[..|body + suffix| - |suffix|] == body
    ensures (body + suffix)[|body + suffix| - |suffix|..] == suffix
  {
  }

  /** Millions with two decimals and "tr". */
  function FormatMillions(v: int): (r: string)
    requires v >= 1_000_000
    ensures |r| > 2 && r[|r| - 2..] == "tr"
    ensures ReadFixed(r[..|r| - 2], 2).Some?
    ensures ReadFixed(r[..|r| - 2], 2).value * 10_000 - 5_000 <= v < ReadFixed(r[..|r| - 2], 2).value * 10_000 + 5_000
  {
    var hundredths := (v + 5_000) / 10_000;
    NearestUnit(v, 10_000, hundredths);
    var body := Fixed(hundredths, 2);
    SuffixedFixed(body, "tr", 2, hundredths);
    body + "tr"
  }

  /** Thousands with one decimal and "k". */
  function FormatThousands(v: int): (r: string)
    requires v >= 1_000
    ensures |r| > 1 && r[|r| - 1] == 'k'
    ensures ReadFixed(r[..|r| - 1], 1).Some?
    ensures ReadFixed(r[..|r| - 1], 1).value * 100 - 50 <= v < ReadFixed(r[..|r| - 1], 1).value * 100 + 50
  {
    var tenths := (v + 50) / 100;
    NearestUnit(v, 100, tenths);
    var body := Fixed(tenths, 1);
    SuffixedFixed(body, "k", 1, tenths);
    body + "k"
  }

  /**
    The `tongKham` display string: millions with two decimals and "tr",
    thousands with one decimal and "k", otherwise the integer itself.
    Rounding is to the nearest unit, an exact half going up.
  */
  function FormatTongKham(v: int): (r: string)
    ensures v >= 1_000_000 ==>
      && |r| > 2 && r[|r| - 2..] == "tr"
      && ReadFixed(r[..|r| - 2], 2).Some?
      && ReadFixed(r[..|r| - 2], 2).value * 10_000 - 5_000 <= v < ReadFixed(r[..|r| - 2], 2).value * 10_000 + 5_000
    ensures 1_000 <= v < 1_000_000 ==>
      && |r| > 1 && r[|r| - 1] == 'k'
      && ReadFixed(r[..|r| - 1], 1).Some?
      && ReadFixed(r[..|r| - 1], 1).value * 100 - 50 <= v < ReadFixed(r[..|r| - 1], 1).value * 100 + 50
    ensures 0 <= v < 1_000 ==> ParseNat(r) == Some(v) && (r[0] == '0' ==> v == 0)
    ensures v < 0 ==> |r| > 1 && r[0] == '-' && r[1] != '0' && ParseNat(r[1..]) == Some(-v)
  {
    if v >= 1_000_000 then FormatMillions(v)
    else if v >= 1_000 then FormatThousands(v)
    else if v >= 0 then
      ParseShow(v);
      Show(v)
    else
      ShowInt(v)
  }

  lemma FixedExamples()
    ensures Fixed(123, 2) == "1.23"
    ensures Fixed(45, 1) == "4.5"
  {
    assert Pow10(2) == 100 && Pow10(1) == 10 && Pow10(0) == 1;
    assert Digits(2, 1) == "2";
    assert Digits(23, 2) == "23";
    assert Show(1) == "1" && Show(4) == "4";
  }

  /** A whole part with a leading zero is not how `toFixed` writes a number, and does not read. */
  lemma LeadingZeroRejected()
    ensures ReadFixed("01.23", 2) == None
    ensures ReadFixed("0.23", 2) == Some(23)
  {
    assert "0.23"[..1] + "0.23"[2..] == "023";
    assert Value("023") == 23 by {
      assert "023"[..2] == "02" && "02"[..1] == "0";
    }
  }

  /** 1,234,567 visits display as "1.23tr". */
  lemma TongKhamMillionsExample()
    ensures FormatTongKham(1_234_567) == "1.23tr"
  {
    FixedExamples();
    assert (1_234_567 + 5_000) / 10_000 == 123;
    assert FormatMillions(1_234_567) == Fixed(123, 2) + "tr";
  }

  /** 4,500 visits display as "4.5k". */
  lemma TongKhamThousandsExample()
    ensures FormatTongKham(4_500) == "4.5k"
  {
    FixedExamples();
    assert (4_500 + 50) / 100 == 45;
    assert FormatThousands(4_500) == Fixed(45, 1) + "k";
  }

  /** 42 visits display as "42". */
  lemma TongKhamPlainExample()
    ensures FormatTongKham(42) == "42"
  {
    assert Show(42) == "42";
  }

  /**
    The page's aggregate: sort a copy of the selection by month number, fold the
    found months in that order, then format the summed visits.
  */
  function Aggregate(selected: seq<string>, reports: map<string, Report>): (r: Result<Aggregated, AggregateError>)
    ensures r.Success? <==> forall m :: m in selected && m in reports ==> reports[m].composition.Some?
    ensures r.Failure? ==> r.error.month in selected && r.error.month in reports && reports[r.error.month].composition.None?
  {
    SortByMonthMembers(selected);
    Combine(SortByMonth(selected), reports)
  }

  /**
    The fold from the initial accumulator over months already in display
    order, then the formatting. It fails only at a found month without a
    composition, and names it.
  */
  function Combine(months: seq<string>, reports: map<string, Report>): (r: Result<Aggregated, AggregateError>)
    ensures r.Success? <==> forall m :: m in months && m in reports ==> reports[m].composition.Some?
    ensures r.Failure? ==> r.error.month in months && r.error.month in reports && reports[r.error.month].composition.None?
  {
    FoldOutcome(Initial, months, reports);
    match Fold(Initial, months, reports)
    case Failure(e) => Failure(e)
    case Success(a) => Success(a.(highlights := a.highlights.(tongKham := FormatTongKham(a.highlights.tongKhamSo))))
  }

  /** Combining lists the found months in the given order, each with its whole series. */
  lemma CombineTrends(months: seq<string>, reports: map<string, Report>)
    requires Combine(months, reports).Success?
    ensures var t := Combine(months, reports).value.trends;
      && t.labels == Found(months, reports)
      && forall d: Disease :: t.Series(d) == Concat(months, reports, d)
  {
    FoldLabels(Initial, months, reports);
    assert [] + Found(months, reports) == Found(months, reports);
    forall d: Disease ensures Combine(months, reports).value.trends.Series(d) == Concat(months, reports, d) {
      FoldSeries(Initial, months, reports, d);
      assert [] + Concat(months, reports, d) == Concat(months, reports, d);
    }
  }

  /** Combining sums each disease's composition entry under the fixed names. */
  lemma CombineComposition(months: seq<string>, reports: map<string, Report>)
    requires Combine(months, reports).Success?
    ensures var c := Combine(months, reports).value.composition;
      && c.labels == CompositionLabels
      && |c.data| == 3
      && forall d: Disease :: c.data[d.Index()] == CompositionTotal(months, reports, d)
  {
    FoldComposition(Initial, months, reports);
  }

  /** Combining sums each headline count and formats the summed visits. */
  lemma CombineHighlights(months: seq<string>, reports: map<string, Report>)
    requires Combine(months, reports).Success?
    ensures var h := Combine(months, reports).value.highlights;
      && (forall c: Count :: TotalOf(h, c) == Total(months, reports, c))
      && h.tongKham == FormatTongKham(Total(months, reports, TongKhamSo))
  {
    FoldHighlights(Initial, months, reports);
    var a := Fold(Initial, months, reports).value;
    assert TotalOf(a.highlights, TongKhamSo) == a.highlights.tongKhamSo;
  }

  /**
    The aggregate's labels and series are the found months and their whole
    series, taken in ascending month order.
  */
  lemma AggregateTrends(selected: seq<string>, reports: map<string, Report>)
    requires Aggregate(selected, reports).Success?
    ensures var t := Aggregate(selected, reports).value.trends; var sorted := SortByMonth(selected);
      && t.labels == Found(sorted, reports)
      && forall d: Disease :: t.Series(d) == Concat(sorted, reports, d)
  {
    CombineTrends(SortByMonth(selected), reports);
  }

  /** The aggregate's composition sums each disease's entry over the found months under the fixed names. */
  lemma AggregateComposition(selected: seq<string>, reports: map<string, Report>)
    requires Aggregate(selected, reports).Success?
    ensures var c := Aggregate(selected, reports).value.composition;
      && c.labels == CompositionLabels
      && |c.data| == 3
      && forall d: Disease :: c.data[d.Index()] == CompositionTotal(SortByMonth(selected), reports, d)
  {
    CombineComposition(SortByMonth(selected), reports);
  }

  /** The aggregate's headline counts are the sums over the found months; the visits are also formatted. */
  lemma AggregateHighlights(selected: seq<string>, reports: map<string, Report>)
    requires Aggregate(selected, reports).Success?
    ensures var h := Aggregate(selected, reports).value.highlights; var sorted := SortByMonth(selected);
      && (forall c: Count :: TotalOf(h, c) == Total(sorted, reports, c))
      && h.tongKham == FormatTongKham(Total(sorted, reports, TongKhamSo))
  {
    CombineHighlights(SortByMonth(selected), reports);
  }

  /** Dropping the months without a report keeps every stored month as often as it occurs. */
  lemma {:induction false} FoundCounts(months: seq<string>, reports: map<string, Report>)
    ensures forall m :: multiset(Found(months, reports))[m] == if m in reports then multiset(months)[m] else 0
    decreases |months|
  {
    if |months| > 0 {
      FoundCounts(months[1..], reports);
      assert months == [months[0]] + months[1..];
      assert multiset(months) == multiset{months[0]} + multiset(months[1..]);
    }
  }

  /** Dropping the months without a report keeps the rest in order. */
  lemma {:induction false} FoundSorted(months: seq<string>, reports: map<string, Report>)
    requires SortedByMonth(months)
    ensures SortedByMonth(Found(months, reports))
    decreases |months|
  {
    if |months| > 0 {
      TailOfSorted(Key, months);
      FoundSorted(months[1..], reports);
      var rest := Found(months[1..], reports);
      if months[0] in reports {
        FirstBeforeRest(months, rest);
      }
    }
  }

  /** A month placed before labels drawn from the rest of a sorted sequence keeps it sorted. */
  lemma FirstBeforeRest(months: seq<string>, rest: seq<string>)
    requires |months| > 0 && SortedByMonth(months) && SortedByMonth(rest)
    requires forall m :: m in rest ==> m in months[1..]
    ensures SortedByMonth([months[0]] + rest)
  {
    var r := [months[0]] + rest;
    forall i, j | 0 <= i < j < |r| ensures Key(r[i]) <= Key(r[j]) {
      assert r[j] == rest[j - 1] && r[j] in months[1..];
      var k :| 0 <= k < |months[1..]| && months[1..][k] == r[j];
      assert months[k + 1] == r[j];
      if i > 0 {
        assert r[i] == rest[i - 1];
      }
    }
  }

  /**
    The aggregate's labels are the selected months that have a stored report,
    each as often as it was selected, in ascending month order.
  */
  lemma AggregateLabels(selected: seq<string>, reports: map<string, Report>)
    requires Aggregate(selected, reports).Success?
    ensures SortedByMonth(Aggregate(selected, reports).value.trends.labels)
    ensures forall m :: m in Aggregate(selected, reports).value.trends.labels <==> m in selected && m in reports
    ensures forall m :: multiset(Aggregate(selected, reports).value.trends.labels)[m]
                        == if m in reports then multiset(selected)[m] else 0
  {
    AggregateTrends(selected, reports);
    var sorted := SortByMonth(selected);
    FoundCounts(sorted, reports);
    FoundSorted(sorted, reports);
    var labels := Found(sorted, reports);
    forall m ensures m in labels <==> m in selected && m in reports {
      assert m in labels <==> multiset(labels)[m] > 0;
      assert m in selected <==> multiset(selected)[m] > 0;
    }
  }

  /**
    When every found month's series has at least one entry, the concatenated
    series is exactly as long as the label list iff every one has exactly one.
  */
  lemma {:induction false} ConcatLength(months: seq<string>, reports: map<string, Report>, d: Disease)
    requires forall m :: m in months && m in reports ==> |reports[m].Series(d)| >= 1
    ensures |Concat(months, reports, d)| >= |Found(months, reports)|
    ensures |Concat(months, reports, d)| == |Found(months, reports)|
            <==> forall m :: m in months && m in reports ==> |reports[m].Series(d)| == 1
    decreases |months|
  {
    if |months| > 0 {
      assert forall m :: m in months[1..] ==> m in months;
      ConcatLength(months[1..], reports, d);
      assert forall m :: m in months ==> m == months[0] || m in months[1..];
    }
  }

  /** With one-entry series, entry `i` of a concatenated series is the `i`-th found month's value. */
  lemma {:induction false} ConcatOfSingles(months: seq<string>, reports: map<string, Report>, d: Disease)
    requires forall m :: m in months && m in reports ==> |reports[m].Series(d)| == 1
    ensures |Concat(months, reports, d)| == |Found(months, reports)|
    ensures forall i :: 0 <= i < |Found(months, reports)| ==>
      Found(months, reports)[i] in reports && Concat(months, reports, d)[i] == reports[Found(months, reports)[i]].Series(d)[0]
    decreases |months|
  {
    if |months| > 0 {
      var tail := months[1..];
      assert forall m :: m in tail ==> m in months;
      ConcatOfSingles(tail, reports, d);
      var m := months[0];
      if m in reports {
        var found, concat := Found(tail, reports), Concat(tail, reports, d);
        assert Found(months, reports) == [m] + found;
        assert Concat(months, reports, d) == reports[m].Series(d) + concat;
        assert reports[m].Series(d) == [reports[m].Series(d)[0]];
      }
    }
  }

  /** A selection none of whose months is stored aggregates to empty series and zero totals. */
  lemma NothingStored(selected: seq<string>, reports: map<string, Report>)
    requires forall m :: m in selected ==> m !in reports
    ensures Aggregate(selected, reports).Success?
    ensures var a := Aggregate(selected, reports).value;
      && a.trends.labels == [] && a.trends.sxh == [] && a.trends.tcm == [] && a.trends.soi == []
      && a.composition.data == [0, 0, 0]
      && a.highlights == Totals("0", 0, 0, 0, 0, 0)
  {
    var sorted := SortByMonth(selected);
    SortByMonthMembers(selected);
    NothingCombinedTrends(sorted, reports);
    NothingCombinedComposition(sorted, reports);
    NothingCombinedHighlights(sorted, reports);
  }

  lemma NothingCombinedTrends(months: seq<string>, reports: map<string, Report>)
    requires Combine(months, reports).Success?
    requires forall m :: m in months ==> m !in reports
    ensures var t := Combine(months, reports).value.trends;
      t.labels == [] && t.sxh == [] && t.tcm == [] && t.soi == []
  {
    NothingFound(months, reports);
    NothingFoundSeries(months, reports, Sxh);
    NothingFoundSeries(months, reports, Tcm);
    NothingFoundSeries(months, reports, Soi);
    CombineTrends(months, reports);
    var t := Combine(months, reports).value.trends;
    assert t.sxh == t.Series(Sxh) && t.tcm == t.Series(Tcm) && t.soi == t.Series(Soi);
  }

  lemma NothingCombinedComposition(months: seq<string>, reports: map<string, Report>)
    requires Combine(months, reports).Success?
    requires forall m :: m in months ==> m !in reports
    ensures Combine(months, reports).value.composition.data == [0, 0, 0]
  {
    NothingFoundSeries(months, reports, Sxh);
    NothingFoundSeries(months, reports, Tcm);
    NothingFoundSeries(months, reports, Soi);
    CombineComposition(months, reports);
    var data := Combine(months, reports).value.composition.data;
    assert data[Sxh.Index()] == 0 && data[Tcm.Index()] == 0 && data[Soi.Index()] == 0;
    assert data == [data[0], data[1], data[2]];
  }

  lemma NothingCombinedHighlights(months: seq<string>, reports: map<string, Report>)
    requires Combine(months, reports).Success?
    requires forall m :: m in months ==> m !in reports
    ensures Combine(months, reports).value.highlights == Totals("0", 0, 0, 0, 0, 0)
  {
    forall c: Count ensures Total(months, reports, c) == 0 {
      NothingFoundTotal(months, reports, c);
    }
    CombineHighlights(months, reports);
    assert FormatTongKham(0) == "0";
    var h := Combine(months, reports).value.highlights;
    assert h.tongKhamSo == TotalOf(h, TongKhamSo);
    assert h.khamNoiTru == TotalOf(h, KhamNoiTru);
    assert h.tieuChay == TotalOf(h, TieuChay);
    assert h.hiv == TotalOf(h, Hiv);
    assert h.naoMoCau == TotalOf(h, NaoMoCau);
  }

  /** With no found month there are no labels. */
  lemma {:induction false} NothingFound(months: seq<string>, reports: map<string, Report>)
    requires forall m :: m in months ==> m !in reports
    ensures Found(months, reports) == []
    decreases |months|
  {
    if |months| > 0 {
      assert forall m :: m in months[1..] ==> m in months;
      NothingFound(months[1..], reports);
    }
  }

  /** With no found month a disease's series is empty and its composition total zero. */
  lemma {:induction false} NothingFoundSeries(months: seq<string>, reports: map<string, Report>, d: Disease)
    requires forall m :: m in months ==> m !in reports
    ensures Concat(months, reports, d) == [] && CompositionTotal(months, reports, d) == 0
    decreases |months|
  {
    if |months| > 0 {
      assert forall m :: m in months[1..] ==> m in months;
      NothingFoundSeries(months[1..], reports, d);
    }
  }

  /** With no found month a headline count sums to zero. */
  lemma {:induction false} NothingFoundTotal(months: seq<string>, reports: map<string, Report>, c: Count)
    requires forall m :: m in months ==> m !in reports
    ensures Total(months, reports, c) == 0
    decreases |months|
  {
    if |months| > 0 {
      assert forall m :: m in months[1..] ==> m in months;
      NothingFoundTotal(months[1..], reports, c);
    }
  }

  /** The aggregate does not depend on the order in which well-formed months were selected. */
  lemma AggregateOrderIndependent(a: seq<string>, b: seq<string>, reports: map<string, Report>)
    requires AllMonthLabels(a)
    requires multiset(a) == multiset(b)
    ensures Aggregate(a, reports) == Aggregate(b, reports)
  {
    SortOrderIndependent(a, b);
  }

  /**
    The checkbox handler: checking appends the month, unchecking removes every
    occurrence of it and leaves the count of every other month alone.
  */
  function ToggleMonth(selected: seq<string>, month: string, checked: bool): (r: seq<string>)
    ensures checked ==> |r| == |selected| + 1 && r[..|selected|] == selected && r[|selected|] == month
    ensures !checked ==> month !in r
    ensures forall m :: m != month ==> multiset(r)[m] == multiset(selected)[m]
  {
    if checked then
      assert (selected + [month])[..|selected|] == selected;
      selected + [month]
    else Without(selected, month)
  }

  /** `s.filter(m => m !== month)`. */
  function Without(s: seq<string>, month: string): (r: seq<string>)
    ensures month !in r
    ensures forall m :: m != month ==> multiset(r)[m] == multiset(s)[m]
    decreases |s|
  {
    if |s| == 0 then []
    else
      assert s == [s[0]] + s[1..];
      (if s[0] == month then [] else [s[0]]) + Without(s[1..], month)
  }

  /**
    Removing a month from a concatenation removes it from each part and keeps
    the parts in order: the other entries stay in their original order.
  */
  lemma {:induction false} WithoutConcat(a: seq<string>, b: seq<string>, month: string)
    ensures Without(a + b, month) == Without(a, month) + Without(b, month)
    decreases |a|
  {
    if |a| > 0 {
      assert (a + b)[1..] == a[1..] + b;
      WithoutConcat(a[1..], b, month);
    } else {
      assert a + b == b;
    }
  }

  /** Checking then unchecking a month leaves the selection as unchecking alone would. */
  lemma CheckThenUncheck(selected: seq<string>, month: string)
    ensures ToggleMonth(ToggleMonth(selected, month, true), month, false) == ToggleMonth(selected, month, false)
  {
    WithoutConcat(selected, [month], month);
    assert Without([month], month) == [];
  }

  /** Unchecking a month that is not selected changes nothing. */
  lemma {:induction false} UncheckAbsent(selected: seq<string>, month: string)
    requires month !in selected
    ensures ToggleMonth(selected, month, false) == selected
    decreases |selected|
  {
    if |selected| > 0 {
      assert month !in selected[1..];
      UncheckAbsent(selected[1..], month);
      assert selected == [selected[0]] + selected[1..];
    }
  }

  /**
    What the page shows: nothing until the reports are loaded or while no
    month is selected, otherwise the aggregate of the selection.
  */
  function DisplayData(allReports: Option<map<string, Report>>, selected: seq<string>): (r: Option<Result<Aggregated, AggregateError>>)
    ensures r.None? <==> allReports.None? || |selected| == 0
    ensures r.Some? && r.value.Success? ==>
      forall m :: m in r.value.value.trends.labels ==> m in selected && m in allReports.value
  {
    if allReports.None? || |selected| == 0 then None
    else
      var result := Aggregate(selected, allReports.value);
      if result.Success? then
        AggregateLabels(selected, allReports.value);
        Some(result)
      else Some(result)
  }
}

=== FILE: charts.dfy ===
/**
  The dashboard's two charts (src/components/charts/): the rows the line
  chart is drawn from, the slices of the composition pie and the pie's
  cyclic cell colours.
*/
module Charts {
  import opened Wrappers
  import opened ReportData
  import opened Months
  import opened Aggregation
  import opened Infographic

  /** A row of the line chart: the month label and each disease's value, missing past the end of its series. */
  datatype TrendRow = TrendRow(name: string, sxh: Option<int>, tcm: Option<int>, soi: Option<int>) {
    function Value(d: Disease): Option<int> {
      match d
      case Sxh => sxh
      case Tcm => tcm
      case Soi => soi
    }
  }

  /** The data key, and legend entry, each disease's line is drawn under. */
  function SeriesKey(d: Disease): string {
    match d
    case Sxh => "Sốt xuất huyết"
    case Tcm => "Tay chân miệng"
    case Soi => "Sởi & nghi Sởi"
  }

  /** The line chart and the infographic's doughnut name every disease alike. */
  lemma SeriesKeysMatchDoughnut(d: Disease)
    ensures SeriesKey(d) == DoughnutLabels[2 - d.Index()]
  {
  }

  /**
    `formatData` of the trends chart: one row per label, in label order, row
    `i` carrying entry `i` of each series.
  */
  function TrendRows(t: TrendSeries): (rows: seq<TrendRow>)
    ensures |rows| == |t.labels|
    ensures forall i :: 0 <= i < |rows| ==> rows[i].name == t.labels[i]
    ensures forall i: nat, d: Disease :: i < |rows| ==> rows[i].Value(d) == EntryAt(t.Series(d), i)
  {
    seq(|t.labels|, i requires 0 <= i < |t.labels| =>
      TrendRow(t.labels[i], EntryAt(t.sxh, i), EntryAt(t.tcm, i), EntryAt(t.soi, i)))
  }

  /** The value of disease `d` in every row, a missing value read as 0. */
  function Column(rows: seq<TrendRow>, d: Disease): (r: seq<int>)
    ensures |r| == |rows|
    ensures forall i :: 0 <= i < |rows| ==> r[i] == rows[i].Value(d).GetOr(0)
    decreases |rows|
  {
    if |rows| == 0 then [] else [rows[0].Value(d).GetOr(0)] + Column(rows[1..], d)
  }

  /** The month labels of the rows. */
  function Names(rows: seq<TrendRow>): (r: seq<string>)
    ensures |r| == |rows|
    ensures forall i :: 0 <= i < |rows| ==> r[i] == rows[i].name
    decreases |rows|
  {
    if |rows| == 0 then [] else [rows[0].name] + Names(rows[1..])
  }

  /** The series read back column by column from the chart's rows. */
  function Unzip(rows: seq<TrendRow>): TrendSeries {
    TrendSeries(Names(rows), Column(rows, Sxh), Column(rows, Tcm), Column(rows, Soi))
  }

  /** Every series as long as the labels. */
  predicate Aligned(t: TrendSeries) {
    forall d: Disease :: |t.Series(d)| == |t.labels|
  }

  /** Series aligned with their labels are recovered exactly from the chart's rows. */
  lemma TrendRowsRoundTrip(t: TrendSeries)
    requires Aligned(t)
    ensures Unzip(TrendRows(t)) == t
  {
    var rows := TrendRows(t);
    forall d: Disease ensures Column(rows, d) == t.Series(d) {
      assert |t.Series(d)| == |t.labels|;
    }
    assert Column(rows, Sxh) == t.Series(Sxh) && Column(rows, Tcm) == t.Series(Tcm) && Column(rows, Soi) == t.Series(Soi);
  }

  /** A series shorter than the labels leaves the later rows' values missing, never fewer rows. */
  lemma ShortSeriesMissing(t: TrendSeries, d: Disease, i: nat)
    requires |t.Series(d)| <= i < |t.labels|
    ensures |TrendRows(t)| == |t.labels|
    ensures TrendRows(t)[i].Value(d) == None
  {
  }

  /** Entries of a series beyond the labels do not reach the chart. */
  lemma ExtraEntriesDropped(t: TrendSeries, sxh: seq<int>, tcm: seq<int>, soi: seq<int>)
    requires |t.sxh| >= |t.labels| && |t.tcm| >= |t.labels| && |t.soi| >= |t.labels|
    ensures TrendRows(TrendSeries(t.labels, t.sxh + sxh, t.tcm + tcm, t.soi + soi)) == TrendRows(t)
  {
    var u := TrendSeries(t.labels, t.sxh + sxh, t.tcm + tcm, t.soi + soi);
    forall i: nat, d: Disease | i < |t.labels| ensures EntryAt(u.Series(d), i) == EntryAt(t.Series(d), i) {
      assert u.Series(d) == t.Series(d) + (match d case Sxh => sxh case Tcm => tcm case Soi => soi);
    }
    var a, b := TrendRows(u), TrendRows(t);
    forall i | 0 <= i < |a| ensures a[i] == b[i] {
      assert a[i].Value(Sxh) == b[i].Value(Sxh);
      assert a[i].Value(Tcm) == b[i].Value(Tcm);
      assert a[i].Value(Soi) == b[i].Value(Soi);
    }
  }

  /**
    Over the page's aggregate of months that each store one entry per series,
    every row of the line chart is complete and is its month's own stored
    values.
  */
  lemma AggregateRows(selected: seq<string>, reports: map<string, Report>, d: Disease)
    requires Aggregate(selected, reports).Success?
    requires forall m :: m in selected && m in reports ==> |reports[m].Series(d)| == 1
    ensures var rows := TrendRows(Aggregate(selected, reports).value.trends);
      forall i :: 0 <= i < |rows| ==>
        rows[i].name in reports && rows[i].Value(d).Some? && reports[rows[i].name].Series(d) == [rows[i].Value(d).value]
  {
    var sorted := SortByMonth(selected);
    var t := Aggregate(selected, reports).value.trends;
    AggregateTrends(selected, reports);
    SortByMonthMembers(selected);
    ConcatOfSingles(sorted, reports, d);
    assert |t.Series(d)| == |t.labels|;
  }

  /** A slice of the composition pie: a label and the entry at its index. */
  datatype Slice = Slice(name: string, value: Option<int>)

  /** `formatData` of the composition chart: one slice per label, in label order. */
  function Slices(c: Composition): (r: seq<Slice>)
    ensures |r| == |c.labels|
    ensures forall i: nat :: i < |r| ==> r[i].name == c.labels[i] && r[i].value == EntryAt(c.data, i)
  {
    seq(|c.labels|, i requires 0 <= i < |c.labels| => Slice(c.labels[i], EntryAt(c.data, i)))
  }

  /** The composition read back from the slices, a missing value read as 0. */
  function Unslice(slices: seq<Slice>): (c: Composition)
    ensures |c.labels| == |c.data| == |slices|
    ensures forall i :: 0 <= i < |slices| ==> c.labels[i] == slices[i].name && c.data[i] == slices[i].value.GetOr(0)
    decreases |slices|
  {
    if |slices| == 0 then Composition([], [])
    else
      var rest := Unslice(slices[1..]);
      Composition([slices[0].name] + rest.labels, [slices[0].value.GetOr(0)] + rest.data)
  }

  /** A composition with one entry per label is recovered exactly from its slices. */
  lemma SlicesRoundTrip(c: Composition)
    requires |c.data| == |c.labels|
    ensures Unslice(Slices(c)) == c
  {
    var u := Unslice(Slices(c));
    assert u.labels == c.labels;
    assert u.data == c.data;
  }

  /** Entries beyond the labels are ignored. */
  lemma ExtraSlicesDropped(c: Composition, extra: seq<int>)
    requires |c.data| >= |c.labels|
    ensures Slices(Composition(c.labels, c.data + extra)) == Slices(c)
  {
    var a, b := Slices(Composition(c.labels, c.data + extra)), Slices(c);
    forall i | 0 <= i < |a| ensures a[i] == b[i] {
      assert (c.data + extra)[i] == c.data[i];
    }
  }

  /** The pie of the page's aggregate: the three disease names, each with its summed entry. */
  lemma AggregateSlices(selected: seq<string>, reports: map<string, Report>, d: Disease)
    requires Aggregate(selected, reports).Success?
    ensures var slices := Slices(Aggregate(selected, reports).value.composition);
      |slices| == 3 && slices[d.Index()] == Slice(CompositionLabels[d.Index()], Some(CompositionTotal(SortByMonth(selected), reports, d)))
  {
    AggregateComposition(selected, reports);
  }

  /** The three chart colours, from the page's CSS variables. */
  const Palette: seq<string> := ["hsl(var(--chart-1))", "hsl(var(--chart-2))", "hsl(var(--chart-3))"]

  /** The fill of pie cell `i`: the palette used cyclically. */
  function CellColor(i: nat): (r: string)
    ensures r in Palette
  {
    Palette[i % |Palette|]
  }

  /** The colour of each disease's line in the trends chart. */
  function LineColor(d: Disease): (r: string)
    ensures r == Palette[d.Index()]
  {
    match d
    case Sxh => "hsl(var(--chart-1))"
    case Tcm => "hsl(var(--chart-2))"
    case Soi => "hsl(var(--chart-3))"
  }

  /** The cell colours repeat with period three, and any three consecutive cells differ. */
  lemma CellColorsCycle(i: nat)
    ensures CellColor(i + 3) == CellColor(i)
    ensures CellColor(i) != CellColor(i + 1) && CellColor(i + 1) != CellColor(i + 2) && CellColor(i) != CellColor(i + 2)
  {
    assert (i + 3) % 3 == i % 3;
    PaletteDistinct();
  }

  lemma PaletteDistinct()
    ensures forall j, k :: 0 <= j < k < |Palette| ==> Palette[j] != Palette[k]
  {
    assert Palette[0][16] == '1' && Palette[1][16] == '2' && Palette[2][16] == '3';
  }

  /** Each disease's pie cell in the aggregate's composition has the colour of its line in the trends chart. */
  lemma SliceColorMatchesLine(d: Disease)
    ensures CellColor(d.Index()) == LineColor(d)
  {
  }
}

=== FILE: decimal.dfy ===
/** Decimal digit strings: how the source prints integers and how it reads a month number back. */
module Decimal {
  import opened Wrappers

  predicate IsDigit(c: char) {
    '0' <= c <= '9'
  }

  predicate AllDigits(s: string) {
    forall i :: 0 <= i < |s| ==> IsDigit(s[i])
  }

  function DigitChar(d: nat): (c: char)
    requires d < 10
    ensures IsDigit(c) && DigitValue(c) == d
  {
    (48 + d) as char
  }

  function DigitValue(c: char): nat
    requires IsDigit(c)
  {
    c as int - 48
  }

  /** The shortest decimal spelling of `n`, as `Number.prototype.toString` prints a non-negative integer. */
  function Show(n: nat): (s: string)
    ensures |s| > 0 && AllDigits(s)
    ensures s[0] == '0' ==> n == 0
    decreases n
  {
    if n < 10 then [DigitChar(n)] else Show(n / 10) + [DigitChar(n % 10)]
  }

  /** Only 0 is spelled with a leading zero, and then as the single digit. */
  lemma ShowLeadingZero(n: nat)
    ensures Show(n)[0] == '0' ==> |Show(n)| == 1
  {
    if Show(n)[0] == '0' {
      assert n == 0;
    }
  }

  /** The number a string of digits denotes. */
  function Value(s: string): nat
    requires AllDigits(s)
  {
    if |s| == 0 then 0 else 10 * Value(s[..|s| - 1]) + DigitValue(s[|s| - 1])
  }

  /** Printing then reading a number gives the number back. */
  lemma {:induction false} ValueOfShow(n: nat)
    ensures Value(Show(n)) == n
    decreases n
  {
    if n >= 10 {
      var s := Show(n);
      assert s[..|s| - 1] == Show(n / 10);
      ValueOfShow(n / 10);
    }
  }

  /** Appending a digit shifts the value one decimal place. */
  lemma ValueAppend(s: string, c: char)
    requires AllDigits(s) && IsDigit(c)
    ensures AllDigits(s + [c])
    ensures Value(s + [c]) == 10 * Value(s) + DigitValue(c)
  {
    assert (s + [c])[..|s|] == s;
  }

  function Pow10(n: nat): (r: nat)
    ensures r > 0
  {
    if n == 0 then 1 else 10 * Pow10(n - 1)
  }

  lemma ShiftDigit(x: int, p: int, y: int, d: int)
    ensures 10 * (x * p + y) + d == x * (10 * p) + (10 * y + d)
  {
  }

  /** The digits of `a` followed by those of `b` denote `a` shifted left by `|b|` places, plus `b`. */
  lemma {:induction false} ValueConcat(a: string, b: string)
    requires AllDigits(a) && AllDigits(b)
    ensures AllDigits(a + b)
    ensures Value(a + b) == Value(a) * Pow10(|b|) + Value(b)
    decreases |b|
  {
    if |b| == 0 {
      assert a + b == a;
    } else {
      var b' := b[..|b| - 1];
      var c := b[|b| - 1];
      assert b == b' + [c];
      assert a + b == (a + b') + [c];
      ValueConcat(a, b');
      ValueAppend(a + b', c);
      ValueAppend(b', c);
      ShiftDigit(Value(a), Pow10(|b'|), Value(b'), DigitValue(c));
    }
  }

  /** `n` written with exactly `width` digits, zeros in front. */
  function Digits(n: nat, width: nat): (s: string)
    requires n < Pow10(width)
    ensures |s| == width && AllDigits(s) && Value(s) == n
  {
    if width == 0 then ""
    else
      var s := Digits(n / 10, width - 1) + [DigitChar(n % 10)];
      ValueAppend(Digits(n / 10, width - 1), DigitChar(n % 10));
      s
  }

  /** `Show` never spells two numbers the same way. */
  lemma ShowInjective(m: nat, n: nat)
    requires Show(m) == Show(n)
    ensures m == n
  {
    ValueOfShow(m);
    ValueOfShow(n);
  }

  /** An integer as `toString` prints it: a minus sign before the digits of a negative value. */
  function ShowInt(v: int): (s: string)
    ensures v >= 0 ==> s == Show(v)
    ensures v < 0 ==> |s| > 1 && s[0] == '-' && s[1] != '0' && AllDigits(s[1..]) && Value(s[1..]) == -v
  {
    if v < 0 then
      ValueOfShow(-v);
      assert ("-" + Show(-v))[1..] == Show(-v);
      "-" + Show(-v)
    else Show(v)
  }

  /** Reads a non-empty run of digits; anything else is not a number. */
  function ParseNat(s: string): (r: Option<nat>)
    ensures r.Some? <==> |s| > 0 && AllDigits(s)
  {
    if |s| > 0 && AllDigits(s) then Some(Value(s)) else None
  }

  /** `ParseNat` reads back every number `Show` prints. */
  lemma ParseShow(n: nat)
    ensures ParseNat(Show(n)) == Some(n)
  {
    ValueOfShow(n);
  }
}

=== FILE: extraction.dfy ===
/**
  The PDF extraction server action (src/ai/flows/extract-data-from-pdf.ts):
  splitting the base64 data URI, pulling the payload out of the model's
  fenced ```json block, filling defaults into the parsed object, and the
  messages of the errors it throws. The generative-model call and
  `JSON.parse` are parameters: the first maps (mime type, base64 data) to
  the response text or to what it threw, the second maps a payload to the
  parsed object or to `None` when the payload is not valid JSON.
*/
module Extraction {
  import opened Wrappers
  import opened ReportData

  // ---------------------------------------------------------------------
  // Substring search

  /** `pat` occurs in `text` starting at index `i`. */
  predicate OccursAt(text: string, pat: string, i: nat) {
    i + |pat| <= |text| && text[i..i + |pat|] == pat
  }

  /** The first index at or after `from` where `pat` occurs. */
  function Find(text: string, pat: string, from: nat): (r: Option<nat>)
    ensures r.Some? ==> from <= r.value && OccursAt(text, pat, r.value)
    ensures forall q: nat :: from <= q && (r.None? || q < r.value) ==> !OccursAt(text, pat, q)
    decreases |text| - from
  {
    if from + |pat| > |text| then None
    else if OccursAt(text, pat, from) then Some(from)
    else Find(text, pat, from + 1)
  }

  /** An occurrence inside a slice is an occurrence in the whole text, shifted by the slice's start. */
  lemma OccursInSlice(text: string, pat: string, lo: nat, hi: nat, q: nat)
    requires lo <= hi <= |text|
    requires OccursAt(text[lo..hi], pat, q)
    ensures OccursAt(text, pat, lo + q)
  {
    forall k | 0 <= k < |pat| ensures text[lo + q..lo + q + |pat|][k] == pat[k] {
      assert text[lo..hi][q..q + |pat|][k] == pat[k];
    }
  }

  // ---------------------------------------------------------------------
  // The data URI

  /** The characters `.` does not match in a JavaScript regular expression. */
  predicate LineTerminator(c: char) {
    c == '\n' || c == '\r' || c == '\U{2028}' || c == '\U{2029}'
  }

  predicate NoLineTerminator(s: string) {
    forall i :: 0 <= i < |s| ==> !LineTerminator(s[i])
  }

  const DataScheme := "data:"
  const Base64Marker := ";base64,"
  const InvalidDataUriMessage := "Invalid data URI format"

  /** The mime type and the base64 payload of a data URI. */
  datatype DataUri = DataUri(mimeType: string, data: string)

  /** After the scheme, `;base64,` at `p` leaves a non-empty mime type before it and a non-empty payload after it. */
  predicate SplitsAt(rest: string, p: nat) {
    1 <= p && p + |Base64Marker| < |rest| && OccursAt(rest, Base64Marker, p)
  }

  /**
    The strings `^data:(.+);base64,(.+)$` matches: the scheme, then at least
    one character of mime type, the marker and at least one character of
    payload, with no line terminator anywhere.
  */
  ghost predicate IsDataUri(uri: string): (b: bool)
    ensures b ==> |uri| >= |DataScheme| + 1 + |Base64Marker| + 1 && uri[..|DataScheme|] == DataScheme
    ensures b ==> NoLineTerminator(uri)
  {
    |uri| >= |DataScheme| && uri[..|DataScheme|] == DataScheme
    && NoLineTerminator(uri[|DataScheme|..])
    && exists p: nat :: SplitsAt(uri[|DataScheme|..], p)
  }

  /** The last split point below `hi`: the greedy first group backs off from the right. */
  function LastSplit(rest: string, hi: nat): (r: Option<nat>)
    ensures r.Some? ==> r.value < hi && SplitsAt(rest, r.value)
    ensures forall q: nat :: q < hi && (r.None? || r.value < q) ==> !SplitsAt(rest, q)
    decreases hi
  {
    if hi == 0 then None
    else if SplitsAt(rest, hi - 1) then Some(hi - 1)
    else LastSplit(rest, hi - 1)
  }

  /**
    The match of `^data:(.+);base64,(.+)$`: the URI matches exactly when it is
    a data URI, the two groups rebuild it, and the split is at the last marker
    that still leaves a payload.
  */
  function ParseDataUri(uri: string): (r: Result<DataUri, string>)
    ensures r.Success? <==> IsDataUri(uri)
    ensures r.Failure? ==> r.error == InvalidDataUriMessage
    ensures r.Success? ==>
      && |r.value.mimeType| > 0 && |r.value.data| > 0
      && uri == DataScheme + r.value.mimeType + Base64Marker + r.value.data
    ensures r.Success? ==> forall q: nat :: |r.value.mimeType| < q ==> !SplitsAt(uri[|DataScheme|..], q)
  {
    if |uri| >= |DataScheme| && uri[..|DataScheme|] == DataScheme && NoLineTerminator(uri[|DataScheme|..]) then
      var rest := uri[|DataScheme|..];
      match LastSplit(rest, |rest|)
      case None => Failure(InvalidDataUriMessage)
      case Some(p) =>
        assert rest[p..p + |Base64Marker|] == Base64Marker;
        assert rest == rest[..p] + Base64Marker + rest[p + |Base64Marker|..];
        Success(DataUri(rest[..p], rest[p + |Base64Marker|..]))
    else Failure(InvalidDataUriMessage)
  }

  /** A mime type and a payload without `;` written as a data URI split back into the same two parts. */
  lemma DataUriRoundTrip(mime: string, data: string)
    requires |mime| > 0 && |data| > 0
    requires NoLineTerminator(mime) && NoLineTerminator(data)
    requires ';' !in data
    ensures ParseDataUri(DataScheme + mime + Base64Marker + data) == Success(DataUri(mime, data))
  {
    var rest := mime + Base64Marker + data;
    var uri := DataScheme + mime + Base64Marker + data;
    assert uri == DataScheme + rest;
    assert uri[..|DataScheme|] == DataScheme && uri[|DataScheme|..] == rest;
    RestLayout(mime, data);
    LastSplitIs(rest, |mime|);
  }

  /** The text after the scheme splits at the end of the mime type and nowhere later. */
  lemma RestLayout(mime: string, data: string)
    requires |mime| > 0 && |data| > 0
    requires NoLineTerminator(mime) && NoLineTerminator(data)
    requires ';' !in data
    ensures var rest := mime + Base64Marker + data;
      && NoLineTerminator(rest)
      && SplitsAt(rest, |mime|)
      && (forall q: nat :: |mime| < q ==> !SplitsAt(rest, q))
      && rest[..|mime|] == mime
      && rest[|mime| + |Base64Marker|..] == data
  {
    var rest := mime + Base64Marker + data;
    forall i | 0 <= i < |rest| ensures !LineTerminator(rest[i]) {
      if i < |mime| {
        assert rest[i] == mime[i];
      } else if i >= |mime| + |Base64Marker| {
        assert rest[i] == data[i - |mime| - |Base64Marker|];
      }
    }
    assert rest[|mime|..|mime| + |Base64Marker|] == Base64Marker;
    forall q: nat | |mime| < q ensures !SplitsAt(rest, q) {
      if q < |rest| {
        if q < |mime| + |Base64Marker| {
          assert rest[q] == Base64Marker[q - |mime|];
        } else {
          assert rest[q] == data[q - |mime| - |Base64Marker|];
        }
        HeadMismatch(rest, Base64Marker, q);
      }
    }
  }

  /** The greedy split lands on the only split point with none after it. */
  lemma LastSplitIs(rest: string, p: nat)
    requires SplitsAt(rest, p)
    requires forall q: nat :: p < q ==> !SplitsAt(rest, q)
    ensures LastSplit(rest, |rest|) == Some(p)
  {
  }

  // ---------------------------------------------------------------------
  // The fenced JSON block

  /** JavaScript's `\s`: its white space and its line terminators. */
  predicate IsSpace(c: char) {
    c == ' ' || c == '\t' || c == '\n' || c == '\r' || c == '\U{000B}' || c == '\U{000C}'
    || c == '\U{00A0}' || c == '\U{1680}' || ('\U{2000}' <= c <= '\U{200A}')
    || c == '\U{2028}' || c == '\U{2029}' || c == '\U{202F}' || c == '\U{205F}'
    || c == '\U{3000}' || c == '\U{FEFF}'
  }

  predicate AllSpace(s: string) {
    forall i :: 0 <= i < |s| ==> IsSpace(s[i])
  }

  const JsonFence := "```json"
  const Fence := "```"

  /** The end of the run of spaces starting at `i`: what a greedy `\s*` consumes. */
  function SkipSpaces(text: string, i: nat): (j: nat)
    requires i <= |text|
    ensures i <= j <= |text|
    ensures forall k :: i <= k < j ==> IsSpace(text[k])
    ensures j == |text| || !IsSpace(text[j])
    decreases |text| - i
  {
    if i == |text| || !IsSpace(text[i]) then i else SkipSpaces(text, i + 1)
  }

  /** The start of the run of spaces ending at `hi`, not going below `lo`. */
  function TrimEnd(text: string, lo: nat, hi: nat): (c: nat)
    requires lo <= hi <= |text|
    ensures lo <= c <= hi
    ensures forall k :: c <= k < hi ==> IsSpace(text[k])
    ensures c == lo || !IsSpace(text[c - 1])
    decreases hi
  {
    if hi == lo || !IsSpace(text[hi - 1]) then hi else TrimEnd(text, lo, hi - 1)
  }

  /**
    The capture of ```` /```json\s*([\s\S]*?)\s*```/ ````: after the first
    ```` ```json ```` and the spaces that follow it, everything up to the next
    ```` ``` ```` with the spaces before that fence trimmed. The lazy group
    stops at the first closing fence because spaces are never backticks.
  */
  function FencedPayload(text: string): (r: Option<string>)
    ensures r.Some? <==> HasBlock(text)
    ensures r.Some? ==> exists i: nat, b: nat, c: nat, f: nat :: CapturedAt(text, i, b, c, f) && r.value == text[b..c]
    ensures r.Some? ==> forall q: nat :: !OccursAt(r.value, Fence, q)
    ensures r.Some? && |r.value| > 0 ==> !IsSpace(r.value[0]) && !IsSpace(r.value[|r.value| - 1])
  {
    match Find(text, JsonFence, 0)
    case None =>
      NoOpeningFence(text);
      None
    case Some(i) =>
      var b := SkipSpaces(text, i + |JsonFence|);
      match Find(text, Fence, b)
      case None =>
        NoClosingFence(text, i, b);
        None
      case Some(f) =>
        BlockFound(text, i, f);
        CaptureFacts(text, b, f);
        var c := TrimEnd(text, b, f);
        assert CapturedAt(text, i, b, c, f);
        Some(text[b..c])
  }

  /**
    Where the regular expression matches: `i` is the first opening fence, `b`
    the end of the spaces after it, `f` the first closing fence at or after
    `b`, and `c` the start of the spaces before that fence. The capture is
    `text[b..c]`.
  */
  predicate CapturedAt(text: string, i: nat, b: nat, c: nat, f: nat) {
    && OccursAt(text, JsonFence, i)
    && (forall q: nat :: q < i ==> !OccursAt(text, JsonFence, q))
    && i + |JsonFence| <= b <= c <= f
    && OccursAt(text, Fence, f)
    && (forall k :: i + |JsonFence| <= k < b ==> IsSpace(text[k]))
    && !IsSpace(text[b])
    && (forall q: nat :: b <= q < f ==> !OccursAt(text, Fence, q))
    && (forall k :: c <= k < f ==> IsSpace(text[k]))
    && (c == b || !IsSpace(text[c - 1]))
  }

  /** Wherever the match lies, the capture handed on is the text between its ends. */
  lemma FencedPayloadAt(text: string, i: nat, b: nat, c: nat, f: nat)
    requires CapturedAt(text, i, b, c, f)
    ensures FencedPayload(text) == Some(text[b..c])
  {
    FindFirst(text, JsonFence, 0, i);
    SkipSpacesTo(text, i + |JsonFence|, b);
    FindFirst(text, Fence, b, f);
    TrimEndRun(text, b, c, f);
  }

  /** `Find` returns the first occurrence at or after `from`. */
  lemma FindFirst(text: string, pat: string, from: nat, at: nat)
    requires from <= at && OccursAt(text, pat, at)
    requires forall q: nat :: from <= q < at ==> !OccursAt(text, pat, q)
    ensures Find(text, pat, from) == Some(at)
  {
  }

  /** Some opening fence is followed, at or after its end, by a closing fence. */
  ghost predicate HasBlock(text: string) {
    exists i: nat, j: nat :: OccursAt(text, JsonFence, i) && i + |JsonFence| <= j && OccursAt(text, Fence, j)
  }

  lemma BlockFound(text: string, i: nat, j: nat)
    requires OccursAt(text, JsonFence, i) && i + |JsonFence| <= j && OccursAt(text, Fence, j)
    ensures HasBlock(text)
  {
  }

  lemma NoOpeningFence(text: string)
    requires Find(text, JsonFence, 0).None?
    ensures !HasBlock(text)
  {
  }

  /** A pattern does not occur where its first character does not. */
  lemma HeadMismatch(text: string, pat: string, j: nat)
    requires j < |text| && |pat| > 0 && text[j] != pat[0]
    ensures !OccursAt(text, pat, j)
  {
    if j + |pat| <= |text| {
      assert text[j..j + |pat|][0] == text[j];
    }
  }

  /** Without a closing fence after the first opening one, there is none after any opening fence. */
  lemma NoClosingFence(text: string, i: nat, b: nat)
    requires Find(text, JsonFence, 0) == Some(i)
    requires b == SkipSpaces(text, i + |JsonFence|)
    requires Find(text, Fence, b).None?
    ensures !HasBlock(text)
  {
    forall i': nat, j: nat | OccursAt(text, JsonFence, i') && i' + |JsonFence| <= j && j < b
      ensures !OccursAt(text, Fence, j)
    {
      assert i <= i';
      assert IsSpace(text[j]);
      HeadMismatch(text, Fence, j);
    }
  }

  /**
    The capture runs from the end of the leading spaces to the start of the
    trailing ones: it holds no fence and has no space at either end.
  */
  lemma CaptureFacts(text: string, b: nat, f: nat)
    requires b <= |text|
    requires b == |text| || !IsSpace(text[b])
    requires Find(text, Fence, b) == Some(f)
    ensures b <= f <= |text|
    ensures var payload := text[b..TrimEnd(text, b, f)];
      && (forall q: nat :: !OccursAt(payload, Fence, q))
      && (|payload| > 0 ==> !IsSpace(payload[0]) && !IsSpace(payload[|payload| - 1]))
  {
    var c := TrimEnd(text, b, f);
    PayloadHasNoFence(text, b, c, f);
    if c > b {
      assert text[b..c][0] == text[b] && text[b..c][c - b - 1] == text[c - 1];
    }
  }

  /** Text that ends before the first closing fence at or after `b` holds no fence. */
  lemma PayloadHasNoFence(text: string, b: nat, c: nat, f: nat)
    requires b <= c <= f <= |text|
    requires Find(text, Fence, b) == Some(f)
    ensures forall q: nat :: !OccursAt(text[b..c], Fence, q)
  {
    forall q: nat | OccursAt(text[b..c], Fence, q) ensures false {
      OccursInSlice(text, Fence, b, c, q);
    }
  }

  // ---------------------------------------------------------------------
  // Default filling

  /** The series a missing extended trend becomes. */
  function FillSeries(s: Option<seq<int>>): seq<int> {
    s.GetOr(ZeroSeries)
  }

  /** Why an extraction failed, before the message wrapping. */
  datatype Cause =
    | AiCallFailed(message: string)
    | AiCallThrewNonError
    | EmptyResponse
    | MissingJsonBlock
    | InvalidJson
    | MissingTrends

  /**
    The default filling after the parse: missing highlights, accidents and
    additional diseases become zeros, `tongKham` is cleared, and each missing
    extended series becomes `[0]`. Reading an extended series of missing
    trends throws.
  */
  function Normalise(p: PartialReport): (r: Result<Report, Cause>)
    ensures r.Failure? <==> p.trends.None?
    ensures r.Failure? ==> r.error == MissingTrends
    ensures r.Success? ==>
      var t, u := p.trends.value, r.value.trends;
      && u.labels == t.labels && u.sxh == t.sxh && u.tcm == t.tcm && u.soi == t.soi
      && (t.dauMuaKhi.Some? ==> u.dauMuaKhi == t.dauMuaKhi.value)
      && (t.bachHau.Some? ==> u.bachHau == t.bachHau.value)
      && (t.sars.Some? ==> u.sars == t.sars.value)
      && (t.cumAH5N1.Some? ==> u.cumAH5N1 == t.cumAH5N1.value)
      && (t.cumAH1N1.Some? ==> u.cumAH1N1 == t.cumAH1N1.value)
      && (t.dauMuaKhi.None? ==> u.dauMuaKhi == [0])
      && (t.bachHau.None? ==> u.bachHau == [0])
      && (t.sars.None? ==> u.sars == [0])
      && (t.cumAH5N1.None? ==> u.cumAH5N1 == [0])
      && (t.cumAH1N1.None? ==> u.cumAH1N1 == [0])
    ensures r.Success? ==> r.value.composition == p.composition
    ensures r.Success? ==>
      var h := r.value.highlights;
      && h.tongKham == ""
      && (p.highlights.Some? ==> h == p.highlights.value.(tongKham := ""))
      && (p.highlights.None? ==> h.tongKhamSo == h.khamNoiTru == h.tieuChay == h.hiv == h.naoMoCau == Some(0))
    ensures r.Success? ==>
      && (p.accidents.Some? ==> r.value.accidents == p.accidents.value)
      && (p.accidents.None? ==> r.value.accidents == Accidents(TrafficAccidents(0, 0, 0.0, 0, 0.0), OccupationalAccidents(0, 0, 0)))
      && (p.additionalDiseases.Some? ==> r.value.additionalDiseases == p.additionalDiseases.value)
      && (p.additionalDiseases.None? ==> r.value.additionalDiseases == AdditionalDiseases(0, 0, 0, 0, 0))
  {
    match p.trends
    case None => Failure(MissingTrends)
    case Some(t) =>
      var highlights := match p.highlights
        case None => ZeroHighlights
        case Some(h) => h.(tongKham := "");
      Success(Report(
        Trends(t.labels, t.sxh, t.tcm, t.soi,
          FillSeries(t.dauMuaKhi), FillSeries(t.bachHau), FillSeries(t.sars),
          FillSeries(t.cumAH5N1), FillSeries(t.cumAH1N1)),
        p.composition,
        highlights,
        p.accidents.GetOr(ZeroAccidents),
        p.additionalDiseases.GetOr(ZeroAdditionalDiseases)))
  }

  /** A stored record seen as a parsed object in which every field is present. */
  function ToPartial(r: Report): PartialReport {
    var t := r.trends;
    PartialReport(
      Some(PartialTrends(t.labels, t.sxh, t.tcm, t.soi,
        Some(t.dauMuaKhi), Some(t.bachHau), Some(t.sars), Some(t.cumAH5N1), Some(t.cumAH1N1))),
      r.composition,
      Some(r.highlights),
      Some(r.accidents),
      Some(r.additionalDiseases))
  }

  /** A record with `tongKham` already cleared comes through the default filling unchanged. */
  lemma NormaliseFixedPoint(r: Report)
    requires r.highlights.tongKham == ""
    ensures Normalise(ToPartial(r)) == Success(r)
  {
  }

  /** Filling defaults twice gives what filling them once gave. */
  lemma NormaliseIdempotent(p: PartialReport)
    requires Normalise(p).Success?
    ensures Normalise(ToPartial(Normalise(p).value)) == Normalise(p)
  {
    NormaliseFixedPoint(Normalise(p).value);
  }

  // ---------------------------------------------------------------------
  // The flow and its errors

  // The messages of the errors the flow throws, as the source spells them.
  const MissingJsonBlockMessage := "AI response was not in the " + "expected format (missing JSON code block)."
  const InvalidJsonMessage := "AI returned invalid JSON " + "format inside the code block."
  const EmptyResponseMessage := "The AI model returned an empty response."
  /** What V8 says when the default filling reads `trends.dauMuaKhi` of a missing `trends`. */
  const MissingTrendsMessage := "Cannot read properties of " + "undefined (reading 'dauMuaKhi')"
  const WrapPrefix := "Failed to process PDF " + "with Firebase AI: "
  const UnknownErrorMessage := "An unknown error occurred " + "while communicating with the AI model."

  /** `extractJson`: the payload of the fenced block, parsed; an empty capture counts as no block. */
  function ExtractJson(text: string, parse: string -> Option<PartialReport>): (r: Result<PartialReport, Cause>)
    ensures r.Failure? ==> r.error == MissingJsonBlock || r.error == InvalidJson
    ensures r.Failure? && r.error == MissingJsonBlock <==> FencedPayload(text).None? || FencedPayload(text) == Some("")
    ensures r.Success? ==> exists payload :: FencedPayload(text) == Some(payload) && payload != "" && parse(payload) == Some(r.value)
    ensures FencedPayload(text).Some? && FencedPayload(text).value != "" ==>
      && (r.Success? <==> parse(FencedPayload(text).value).Some?)
      && (r.Failure? ==> r.error == InvalidJson)
  {
    match FencedPayload(text)
    case None => Failure(MissingJsonBlock)
    case Some(payload) =>
      if payload == "" then Failure(MissingJsonBlock)
      else match parse(payload)
        case None => Failure(InvalidJson)
        case Some(v) => Success(v)
  }

  /**
    A block whose payload has no backtick and no space at either end, after
    text without backticks, hands exactly that payload to the parser.
  */
  lemma FencedPayloadRoundTrip(pre: string, lead: string, payload: string, trail: string, post: string)
    requires '`' !in pre && '`' !in payload
    requires AllSpace(lead) && AllSpace(trail)
    requires |payload| > 0 ==> !IsSpace(payload[0]) && !IsSpace(payload[|payload| - 1])
    ensures FencedPayload(pre + JsonFence + lead + payload + trail + Fence + post) == Some(payload)
  {
    BlockLayout(pre, lead, payload, trail, post);
    var e := |pre| + |JsonFence| + |lead|;
    PayloadBetween(pre + JsonFence + lead + payload + trail + Fence + post, |pre|, e, e + |payload|, e + |payload| + |trail|, payload);
  }

  /** The capture of a text laid out as text, opening fence, spaces, payload, spaces and closing fence. */
  lemma PayloadBetween(text: string, i: nat, e: nat, c: nat, f: nat, payload: string)
    requires i + |JsonFence| <= e <= c <= f && f + |Fence| <= |text|
    requires OccursAt(text, JsonFence, i) && OccursAt(text, Fence, f)
    requires forall k :: 0 <= k < i ==> text[k] != '`'
    requires forall k :: i + |JsonFence| <= k < e ==> IsSpace(text[k])
    requires forall k :: e <= k < c ==> text[k] != '`'
    requires forall k :: c <= k < f ==> IsSpace(text[k])
    requires text[e..c] == payload
    requires |payload| > 0 ==> !IsSpace(payload[0]) && !IsSpace(payload[|payload| - 1])
    ensures FencedPayload(text) == Some(payload)
  {
    NoBacktickBefore(text, JsonFence, 0, i);
    if |payload| > 0 {
      assert text[e] == payload[0] && text[c - 1] == payload[|payload| - 1];
      SkipSpacesTo(text, i + |JsonFence|, e);
      NoBacktickBefore(text, Fence, e, f);
      TrimEndRun(text, e, c, f);
    } else {
      assert text[f] == Fence[0];
      SkipSpacesTo(text, i + |JsonFence|, f);
      NoBacktickBefore(text, Fence, f, f);
    }
  }

  /** The two fences of a laid-out block sit where the parts put them. */
  lemma LayoutFences(pre: string, middle: string, post: string)
    ensures var text := pre + JsonFence + middle + Fence + post;
      && |pre| + |JsonFence| + |middle| + |Fence| <= |text|
      && OccursAt(text, JsonFence, |pre|)
      && OccursAt(text, Fence, |pre| + |JsonFence| + |middle|)
  {
    var text := pre + JsonFence + middle + Fence + post;
    var i := |pre|;
    var f := i + |JsonFence| + |middle|;
    assert text[i..i + |JsonFence|] == JsonFence;
    assert text[f..f + |Fence|] == Fence;
  }

  /** Before the opening fence the text is `pre`; between the fences it is `middle`. */
  lemma LayoutParts(pre: string, middle: string, post: string)
    ensures var text := pre + JsonFence + middle + Fence + post;
      && (forall k :: 0 <= k < |pre| ==> text[k] == pre[k])
      && (forall k :: 0 <= k < |middle| ==> text[|pre| + |JsonFence| + k] == middle[k])
  {
  }

  /** Where the spaces and the payload of a block sit between its fences. */
  lemma LayoutMiddle(lead: string, payload: string, trail: string)
    ensures var middle := lead + payload + trail;
      && (forall k :: 0 <= k < |lead| ==> middle[k] == lead[k])
      && (forall k :: 0 <= k < |payload| ==> middle[|lead| + k] == payload[k])
      && (forall k :: 0 <= k < |trail| ==> middle[|lead| + |payload| + k] == trail[k])
  {
  }

  /** Where each part of a fenced block sits in the text. */
  lemma BlockLayout(pre: string, lead: string, payload: string, trail: string, post: string)
    requires '`' !in pre && '`' !in payload
    requires AllSpace(lead) && AllSpace(trail)
    ensures var text := pre + JsonFence + lead + payload + trail + Fence + post;
      var i := |pre|;
      var e := i + |JsonFence| + |lead|;
      var c := e + |payload|;
      var f := c + |trail|;
      && f + |Fence| <= |text|
      && OccursAt(text, JsonFence, i)
      && (forall k :: 0 <= k < i ==> text[k] != '`')
      && (forall k :: i + |JsonFence| <= k < e ==> IsSpace(text[k]))
      && (forall k :: e <= k < c ==> text[k] != '`')
      && (forall k :: c <= k < f ==> IsSpace(text[k]))
      && OccursAt(text, Fence, f)
      && text[e..c] == payload
  {
    var middle := lead + payload + trail;
    var text := pre + JsonFence + middle + Fence + post;
    assert text == pre + JsonFence + lead + payload + trail + Fence + post;
    LayoutFences(pre, middle, post);
    LayoutParts(pre, middle, post);
    LayoutMiddle(lead, payload, trail);
    var i := |pre|;
    var e := i + |JsonFence| + |lead|;
    var c := e + |payload|;
    forall k | e <= k < c ensures text[k] == payload[k - e] {
      assert text[k] == middle[k - i - |JsonFence|];
    }
  }

  /** With no backtick in `[from, at)`, a backtick-led pattern is first found at `at`. */
  lemma NoBacktickBefore(text: string, pat: string, from: nat, at: nat)
    requires |pat| > 0 && pat[0] == '`'
    requires from <= at && OccursAt(text, pat, at)
    requires forall k :: from <= k < at ==> text[k] != '`'
    ensures Find(text, pat, from) == Some(at)
  {
  }

  /** `SkipSpaces` stops at the first non-space. */
  lemma SkipSpacesTo(text: string, i: nat, j: nat)
    requires i <= j < |text|
    requires forall k :: i <= k < j ==> IsSpace(text[k])
    requires !IsSpace(text[j])
    ensures SkipSpaces(text, i) == j
    decreases j - i
  {
    if i < j {
      SkipSpacesTo(text, i + 1, j);
    }
  }

  /** `TrimEnd` backs off exactly over a run of spaces preceded by a non-space. */
  lemma TrimEndRun(text: string, lo: nat, c: nat, hi: nat)
    requires lo <= c <= hi <= |text|
    requires forall k :: c <= k < hi ==> IsSpace(text[k])
    requires c == lo || !IsSpace(text[c - 1])
    ensures TrimEnd(text, lo, hi) == c
    decreases hi
  {
    if hi > c {
      TrimEndRun(text, lo, c, hi - 1);
    }
  }

  /** What the model's generation call produced: its text, or what it threw. */
  datatype Thrown = ErrorValue(message: string) | OtherValue

  /** The steps after the model answered: the empty check, the block extraction and the default filling. */
  function Process(response: string, parse: string -> Option<PartialReport>): (r: Result<Report, Cause>)
    ensures response == "" ==> r == Failure(EmptyResponse)
    ensures r.Failure? ==> r.error in {EmptyResponse, MissingJsonBlock, InvalidJson, MissingTrends}
    ensures r.Success? ==>
      exists p :: ExtractJson(response, parse) == Success(p) && Normalise(p) == r
    ensures response != "" && ExtractJson(response, parse).Success? ==>
      (r.Success? <==> ExtractJson(response, parse).value.trends.Some?)
    ensures response != "" && ExtractJson(response, parse).Failure? ==> r == Failure(ExtractJson(response, parse).error)
  {
    if response == "" then Failure(EmptyResponse)
    else match ExtractJson(response, parse)
      case Failure(c) => Failure(c)
      case Success(p) => Normalise(p)
  }

  /** The message of the error an inner failure throws. */
  function Message(c: Cause): string {
    match c
    case AiCallFailed(m) => m
    case AiCallThrewNonError => ""
    case EmptyResponse => EmptyResponseMessage
    case MissingJsonBlock => MissingJsonBlockMessage
    case InvalidJson => InvalidJsonMessage
    case MissingTrends => MissingTrendsMessage
  }

  /** The catch block: an `Error` is rethrown with the prefix, anything else as the unknown error. */
  function Wrapped(c: Cause): (m: string)
    ensures c.AiCallThrewNonError? <==> m == UnknownErrorMessage
    ensures !c.AiCallThrewNonError? ==> |m| >= |WrapPrefix| && m[..|WrapPrefix|] == WrapPrefix && m[|WrapPrefix|..] == Message(c)
  {
    if c.AiCallThrewNonError? then UnknownErrorMessage
    else
      assert (WrapPrefix + Message(c))[0] != UnknownErrorMessage[0];
      WrapPrefix + Message(c)
  }

  /** The cause a thrown value from the generation call stands for. */
  function ThrownCause(t: Thrown): Cause {
    match t
    case ErrorValue(m) => AiCallFailed(m)
    case OtherValue => AiCallThrewNonError
  }

  /** `extractDataFromPdf`: the report, or the message of the error it throws. */
  function ExtractDataFromPdf(
    uri: string,
    generate: (string, string) -> Result<string, Thrown>,
    parse: string -> Option<PartialReport>): (r: Result<Report, string>)
    ensures !IsDataUri(uri) <==> r == Failure(InvalidDataUriMessage)
    ensures IsDataUri(uri) && r.Failure? ==>
      exists c :: r.error == Wrapped(c) && (c.AiCallFailed? || c.AiCallThrewNonError? || c == EmptyResponse
                                           || c == MissingJsonBlock || c == InvalidJson || c == MissingTrends)
    ensures r.Success? ==>
      var d := ParseDataUri(uri).value;
      && generate(d.mimeType, d.data).Success?
      && Process(generate(d.mimeType, d.data).value, parse) == Success(r.value)
    ensures IsDataUri(uri) ==>
      var d := ParseDataUri(uri).value;
      && (generate(d.mimeType, d.data).Failure? ==> r == Failure(Wrapped(ThrownCause(generate(d.mimeType, d.data).error))))
      && (generate(d.mimeType, d.data).Success? ==>
            var outcome := Process(generate(d.mimeType, d.data).value, parse);
            && (outcome.Success? ==> r == Success(outcome.value))
            && (outcome.Failure? ==> r == Failure(Wrapped(outcome.error))))
  {
    match ParseDataUri(uri)
    case Failure(e) => Failure(e)
    case Success(d) =>
      var answer := generate(d.mimeType, d.data);
      var outcome := if answer.Failure? then Failure(ThrownCause(answer.error)) else Process(answer.value, parse);
      match outcome
      case Failure(c) =>
        WrappedNotInvalidUri(c);
        Failure(Wrapped(c))
      case Success(report) => Success(report)
  }

  /** No wrapped message is the invalid-URI message, so a URI failure is told apart from every other. */
  lemma WrappedNotInvalidUri(c: Cause)
    ensures Wrapped(c) != InvalidDataUriMessage
  {
    if !c.AiCallThrewNonError? {
      assert InvalidDataUriMessage[0] != WrapPrefix[0];
    }
  }

  /** Distinct failures of the steps after the model answered throw distinct messages. */
  lemma WrappedDistinguishes(a: Cause, b: Cause)
    requires !a.AiCallFailed? && !b.AiCallFailed?
    requires Wrapped(a) == Wrapped(b)
    ensures a == b
  {
    if !a.AiCallThrewNonError? && !b.AiCallThrewNonError? {
      assert Message(a) == Wrapped(a)[|WrapPrefix|..];
      assert Message(a) == Message(b);
      assert EmptyResponseMessage[4] != MissingJsonBlockMessage[4];
      assert EmptyResponseMessage[4] != InvalidJsonMessage[4];
      assert EmptyResponseMessage[4] != MissingTrendsMessage[4];
      assert MissingJsonBlockMessage[5] != InvalidJsonMessage[5];
      assert MissingJsonBlockMessage[0] != MissingTrendsMessage[0];
      assert InvalidJsonMessage[0] != MissingTrendsMessage[0];
    }
  }
  /** A fenced block holding only spaces counts as no block at all. */
  lemma BlankBlock(lead: string, post: string, parse: string -> Option<PartialReport>)
    requires AllSpace(lead)
    ensures ExtractJson(JsonFence + lead + Fence + post, parse) == Failure(MissingJsonBlock)
  {
    var text := JsonFence + lead + Fence + post;
    assert "" + JsonFence + lead + "" + "" + Fence + post == text by {
      assert "" + JsonFence == JsonFence;
      assert JsonFence + lead + "" == JsonFence + lead;
      assert JsonFence + lead + "" + "" == JsonFence + lead;
    }
    FencedPayloadRoundTrip("", lead, "", "", post);
    assert FencedPayload(text) == Some("");
  }

  /** A well-formed block reaches the parser with exactly its payload. */
  lemma BlockParsed(pre: string, lead: string, payload: string, trail: string, post: string, parse: string -> Option<PartialReport>)
    requires '`' !in pre && '`' !in payload && |payload| > 0
    requires AllSpace(lead) && AllSpace(trail)
    requires !IsSpace(payload[0]) && !IsSpace(payload[|payload| - 1])
    ensures var r := ExtractJson(pre + JsonFence + lead + payload + trail + Fence + post, parse);
      && (parse(payload).None? ==> r == Failure(InvalidJson))
      && (parse(payload).Some? ==> r == Success(parse(payload).value))
  {
    FencedPayloadRoundTrip(pre, lead, payload, trail, post);
  }

  /** Once the URI is valid, every failure surfaces with the prefix, except a non-`Error` throw from the call. */
  lemma FailuresWrapped(
    uri: string,
    generate: (string, string) -> Result<string, Thrown>,
    parse: string -> Option<PartialReport>)
    requires IsDataUri(uri)
    requires ExtractDataFromPdf(uri, generate, parse).Failure?
    ensures var d := ParseDataUri(uri).value; var m := ExtractDataFromPdf(uri, generate, parse).error;
      && (generate(d.mimeType, d.data) == Failure(OtherValue) <==> m == UnknownErrorMessage)
      && (m != UnknownErrorMessage ==> |m| >= |WrapPrefix| && m[..|WrapPrefix|] == WrapPrefix)
  {
    var d := ParseDataUri(uri).value;
    var answer := generate(d.mimeType, d.data);
    if answer.Failure? {
      var c := ThrownCause(answer.error);
      assert ExtractDataFromPdf(uri, generate, parse).error == Wrapped(c);
    } else {
      var c := Process(answer.value, parse).error;
      assert ExtractDataFromPdf(uri, generate, parse).error == Wrapped(c);
    }
  }

  /** An empty answer from the model fails with the wrapped empty-response message. */
  lemma EmptyAnswer(
    uri: string,
    generate: (string, string) -> Result<string, Thrown>,
    parse: string -> Option<PartialReport>)
    requires IsDataUri(uri)
    requires generate(ParseDataUri(uri).value.mimeType, ParseDataUri(uri).value.data) == Success("")
    ensures ExtractDataFromPdf(uri, generate, parse) == Failure(WrapPrefix + EmptyResponseMessage)
  {
    assert Process("", parse) == Failure(EmptyResponse);
    assert Wrapped(EmptyResponse) == WrapPrefix + EmptyResponseMessage;
  }

  /** A parsed object without `trends` fails with the wrapped TypeError message. */
  lemma TrendsMissing(
    uri: string,
    generate: (string, string) -> Result<string, Thrown>,
    parse: string -> Option<PartialReport>)
    requires IsDataUri(uri)
    requires var answer := generate(ParseDataUri(uri).value.mimeType, ParseDataUri(uri).value.data);
      && answer.Success? && answer.value != ""
      && ExtractJson(answer.value, parse).Success?
      && ExtractJson(answer.value, parse).value.trends.None?
    ensures ExtractDataFromPdf(uri, generate, parse) == Failure(WrapPrefix + MissingTrendsMessage)
  {
    var d := ParseDataUri(uri).value;
    var answer := generate(d.mimeType, d.data).value;
    assert Normalise(ExtractJson(answer, parse).value) == Failure(MissingTrends);
    assert Process(answer, parse) == Failure(MissingTrends);
    assert Wrapped(MissingTrends) == WrapPrefix + MissingTrendsMessage;
  }

  /**
    End to end: a data URI built from a mime type and a payload reaches the
    model with exactly those two parts, and an answer the later steps accept
    comes back as the report.
  */
  lemma ExtractEndToEnd(
    mime: string, data: string, answer: string,
    generate: (string, string) -> Result<string, Thrown>,
    parse: string -> Option<PartialReport>)
    requires |mime| > 0 && |data| > 0
    requires NoLineTerminator(mime) && NoLineTerminator(data)
    requires ';' !in data
    requires generate(mime, data) == Success(answer)
    requires Process(answer, parse).Success?
    ensures ExtractDataFromPdf(DataScheme + mime + Base64Marker + data, generate, parse) == Success(Process(answer, parse).value)
  {
    DataUriRoundTrip(mime, data);
  }

  /**
    End to end from the answer's layout: when the match captures a payload
    the parser accepts and whose object has trends, the report is that
    object with its defaults filled in.
  */
  lemma ExtractFromCapture(
    uri: string, i: nat, b: nat, c: nat, f: nat,
    generate: (string, string) -> Result<string, Thrown>,
    parse: string -> Option<PartialReport>)
    requires IsDataUri(uri)
    requires var d := ParseDataUri(uri).value; generate(d.mimeType, d.data).Success?
    requires var answer := generate(ParseDataUri(uri).value.mimeType, ParseDataUri(uri).value.data).value;
      && CapturedAt(answer, i, b, c, f) && b < c
      && parse(answer[b..c]).Some? && parse(answer[b..c]).value.trends.Some?
    ensures var answer := generate(ParseDataUri(uri).value.mimeType, ParseDataUri(uri).value.data).value;
      ExtractDataFromPdf(uri, generate, parse) == Success(Normalise(parse(answer[b..c]).value).value)
  {
    var d := ParseDataUri(uri).value;
    var answer := generate(d.mimeType, d.data).value;
    FencedPayloadAt(answer, i, b, c, f);
    assert answer != "";
  }
}

=== FILE: infographic.dfy ===
/**
  The printable infographic (src/components/infographic-template.tsx): its
  title and subtitle for the selected months, the "latest month" figures of
  the hotspot card, the reversed doughnut data and the card's visibility.
*/
module Infographic {
  import opened Wrappers
  import opened Decimal
  import opened ReportData
  import opened Months
  import opened Aggregation

  const NoDataTitle := "Chưa chọn dữ liệu"
  const TitleLead := "Tình hình dịch bệnh "
  const RangeLead := "Tình hình dịch bệnh từ "
  const RangeMiddle := " đến "
  const TitleTail := " năm 2025 tại TP. Cần Thơ"

  /** What the title announces: no selection, one month, or a range of months. */
  datatype Heading = NoData | OneMonth(month: string) | MonthRange(first: string, last: string)

  /**
    The title's text: a fixed lead, the month labels interpolated verbatim
    (with a fixed separator between the two ends of a range) and a fixed
    tail, so each label can be read back at a fixed offset.
  */
  function TitleText(h: Heading): (r: string)
    ensures h.NoData? <==> r == NoDataTitle
    ensures h.OneMonth? ==>
      var m := |TitleLead| + |h.month|;
      && |r| == m + |TitleTail|
      && r[..|TitleLead|] == TitleLead && r[|TitleLead|..m] == h.month && r[m..] == TitleTail
    ensures h.MonthRange? ==>
      var m := |RangeLead| + |h.first|;
      var l := m + |RangeMiddle|;
      && |r| == l + |h.last| + |TitleTail|
      && r[..|RangeLead|] == RangeLead && r[|RangeLead|..m] == h.first && r[m..l] == RangeMiddle
      && r[l..l + |h.last|] == h.last && r[l + |h.last|..] == TitleTail
  {
    match h
    case NoData => NoDataTitle
    case OneMonth(m) =>
      Pieces(TitleLead, m, TitleTail);
      assert (TitleLead + m + TitleTail)[0] != NoDataTitle[0];
      TitleLead + m + TitleTail
    case MonthRange(first, last) =>
      var head := RangeLead + first + RangeMiddle;
      Pieces(head, last, TitleTail);
      Pieces(RangeLead, first, RangeMiddle);
      var r := head + last + TitleTail;
      var m := |RangeLead| + |first|;
      assert r[..|RangeLead|] == head[..|RangeLead|];
      assert r[|RangeLead|..m] == head[|RangeLead|..m];
      assert r[m..|head|] == head[m..];
      assert r[0] != NoDataTitle[0];
      r
  }

  /** A piece interpolated between a lead and a tail splits back into the three. */
  lemma Pieces(lead: string, piece: string, tail: string)
    ensures var s := lead + piece + tail;
      && s[..|lead|] == lead
      && s[|lead|..|lead| + |piece|] == piece
      && s[|lead| + |piece|..] == tail
  {
    var s := lead + piece + tail;
    assert forall k :: 0 <= k < |piece| ==> s[|lead| + k] == piece[k];
    assert forall k :: 0 <= k < |tail| ==> s[|lead| + |piece| + k] == tail[k];
  }

  /** Titles of one month are told apart by the month, and so are ranges whose first labels have equal lengths. */
  lemma TitleTextInjective(g: Heading, h: Heading)
    requires TitleText(g) == TitleText(h)
    requires (g.OneMonth? && h.OneMonth?) || (g.MonthRange? && h.MonthRange? && |g.first| == |h.first|)
    ensures g == h
  {
  }

  /** `first` and `last` are selected months of least and of greatest key. */
  predicate Spans(s: seq<string>, first: string, last: string) {
    && first in s && last in s
    && forall x :: x in s ==> Key(first) <= Key(x) <= Key(last)
  }

  /** The ends of any ascending permutation of the selection span it. */
  lemma SortedSpans(s: seq<string>, r: seq<string>)
    requires |s| > 0
    requires SortedBy(Key, r) && multiset(r) == multiset(s)
    ensures |r| == |s| && Spans(s, r[0], r[|r| - 1])
  {
    assert |r| == |multiset(r)| == |multiset(s)| == |s|;
    assert r[0] in multiset(s) && r[|r| - 1] in multiset(s);
    forall x | x in s ensures Key(r[0]) <= Key(x) <= Key(r[|r| - 1]) {
      assert x in multiset(r);
      var k :| 0 <= k < |r| && r[k] == x;
    }
  }

  /**
    `generateTitle`'s choice: nothing selected, one month, or the range from
    a month of least number to a month of greatest number.
  */
  function Title(selected: seq<string>): (h: Heading)
    ensures |selected| == 0 <==> h.NoData?
    ensures |selected| == 1 ==> h == OneMonth(selected[0])
    ensures |selected| >= 2 ==> h.MonthRange? && Spans(selected, h.first, h.last)
  {
    if |selected| == 0 then NoData
    else if |selected| == 1 then OneMonth(selected[0])
    else
      var sorted := SortByMonth(selected);
      SortedSpans(selected, sorted);
      MonthRange(sorted[0], sorted[|selected| - 1])
  }

  /** For well-formed labels the range runs from the earliest to the latest selected month. */
  lemma TitleRange(selected: seq<string>)
    requires |selected| >= 2
    requires AllMonthLabels(selected)
    ensures Title(selected) == MonthRange(Earliest(selected), Latest(selected))
  {
    SortedStartsEarliest(selected);
    SortedEndsLatest(selected);
  }

  /** The title of well-formed labels does not depend on the order they were selected in. */
  lemma TitleOrderIndependent(a: seq<string>, b: seq<string>)
    requires AllMonthLabels(a)
    requires multiset(a) == multiset(b)
    ensures Title(a) == Title(b)
  {
    assert |a| == |multiset(a)| == |multiset(b)| == |b|;
    if |a| == 0 {
      assert a == [] == b;
    } else if |a| == 1 {
      SingletonPermutation(a, b);
    } else {
      SortOrderIndependent(a, b);
      SameSortSameTitle(a, b);
    }
  }

  /** Two selections of at least two months that sort alike have the same title. */
  lemma SameSortSameTitle(a: seq<string>, b: seq<string>)
    requires |a| >= 2 && |b| == |a|
    requires SortByMonth(a) == SortByMonth(b)
    ensures Title(a) == Title(b)
  {
    SortedLength(a);
  }

  lemma SingletonPermutation(a: seq<string>, b: seq<string>)
    requires |a| == 1 && multiset(a) == multiset(b)
    ensures a == b
  {
    assert |b| == |multiset(b)| == 1;
    assert b[0] in multiset(a);
  }

  const NoSelectionSubtitle := "Vui lòng chọn dữ liệu từ sidebar"
  const DetailLead := "Phân tích chi tiết cho "
  const SummaryLead := "Phân tích tổng hợp cho "
  const SummaryTail := " tháng được chọn"

  /** `generateSubtitle`: a prompt, the one month's label, or the number of months selected. */
  function Subtitle(selected: seq<string>): (r: string)
    ensures |selected| == 0 ==> r == NoSelectionSubtitle
    ensures |selected| == 1 ==> r == DetailLead + selected[0]
    ensures |selected| >= 2 ==>
      exists digits :: r == SummaryLead + digits + SummaryTail && ParseNat(digits) == Some(|selected|) && digits[0] != '0'
  {
    if |selected| == 0 then NoSelectionSubtitle
    else if |selected| == 1 then DetailLead + selected[0]
    else
      ParseShow(|selected|);
      SummaryLead + Show(|selected|) + SummaryTail
  }

  /** Subtitles that summarise a selection tell the number of months apart. */
  lemma SubtitleCountInjective(a: seq<string>, b: seq<string>)
    requires |a| >= 2 && |b| >= 2
    requires Subtitle(a) == Subtitle(b)
    ensures |a| == |b|
  {
    var sa, sb := Show(|a|), Show(|b|);
    Pieces(SummaryLead, sa, SummaryTail);
    Pieces(SummaryLead, sb, SummaryTail);
    ShowInjective(|a|, |b|);
  }

  /** The comparator `monthB - monthA`: descending by month number. */
  function Descending(name: string): int {
    -Key(name)
  }

  /** Ascending by this key is exactly descending by month number. */
  lemma DescendingSorted(s: seq<string>)
    ensures SortedBy(Descending, s) <==> forall i, j :: 0 <= i < j < |s| ==> Key(s[j]) <= Key(s[i])
  {
  }

  /**
    The head of the selection sorted by descending month number; nothing when
    no month is selected.
  */
  function LatestMonth(selected: seq<string>): (r: Option<string>)
    ensures r.None? <==> |selected| == 0
    ensures r.Some? ==> r.value in selected && forall x :: x in selected ==> Key(x) <= Key(r.value)
  {
    if |selected| == 0 then None
    else
      var sorted := SortBy(Descending, selected);
      LatestBound(selected, sorted);
      Some(sorted[0])
  }

  lemma LatestBound(s: seq<string>, r: seq<string>)
    requires |s| > 0
    requires SortedBy(Descending, r) && multiset(r) == multiset(s)
    ensures |r| > 0 && r[0] in s
    ensures forall x :: x in s ==> Key(x) <= Key(r[0])
  {
    assert |r| == |multiset(r)| == |multiset(s)| == |s|;
    assert r[0] in multiset(s);
    forall x | x in s ensures Key(x) <= Key(r[0]) {
      assert x in multiset(r);
      var k :| 0 <= k < |r| && r[k] == x;
      assert Descending(r[0]) <= Descending(r[k]);
    }
  }

  /** For well-formed labels the latest month is the one `Latest` picks. */
  lemma LatestMonthIsLatest(selected: seq<string>)
    requires |selected| > 0
    requires AllMonthLabels(selected)
    ensures LatestMonth(selected) == Some(Latest(selected))
  {
    var r := SortBy(Descending, selected);
    MonthLabelsDistinguish(selected);
    assert KeysDistinguish(Descending, selected);
    KeysDistinguishPermutation(Descending, selected, r);
    assert |r| == |multiset(r)| == |multiset(selected)| == |selected|;
    var l := Latest(selected);
    assert l in multiset(r);
    forall x | x in r ensures Descending(l) <= Descending(x) {
      assert x in multiset(selected);
    }
    SortedFirstIsLeast(Descending, r, l);
  }

  /** The first index of `x` in `s`, as `indexOf` finds it. */
  function IndexOf(s: seq<string>, x: string): (r: Option<nat>)
    ensures r.None? <==> x !in s
    ensures r.Some? ==> r.value < |s| && s[r.value] == x && forall j :: 0 <= j < r.value ==> s[j] != x
    decreases |s|
  {
    if |s| == 0 then None
    else if s[0] == x then Some(0)
    else
      match IndexOf(s[1..], x)
      case None => None
      case Some(i) => Some(i + 1)
  }

  /** The hotspot card's two figures. */
  datatype LatestCounts = LatestCounts(tcm: int, sxh: int)

  /**
    `getLatestMonthData`: the latest month's hand-foot-mouth and dengue counts,
    read at its first position among the chart labels; zeros when nothing is
    selected or the month is not charted.
  */
  function LatestMonthData(labels: seq<string>, tcm: seq<int>, sxh: seq<int>, selected: seq<string>): (r: LatestCounts)
    ensures LatestMonth(selected).None? ==> r == LatestCounts(0, 0)
    ensures LatestMonth(selected).Some? && LatestMonth(selected).value !in labels ==> r == LatestCounts(0, 0)
    ensures LatestMonth(selected).Some? && LatestMonth(selected).value in labels ==>
      exists i :: 0 <= i < |labels| && labels[i] == LatestMonth(selected).value
        && (forall j :: 0 <= j < i ==> labels[j] != labels[i])
        && r == LatestCounts(EntryOrZero(tcm, i), EntryOrZero(sxh, i))
  {
    match LatestMonth(selected)
    case None => LatestCounts(0, 0)
    case Some(month) =>
      match IndexOf(labels, month)
      case None => LatestCounts(0, 0)
      case Some(i) => LatestCounts(EntryOrZero(tcm, i), EntryOrZero(sxh, i))
  }

  /**
    Shown over the page's aggregate of one-entry months, the hotspot figures
    are the latest selected month's own stored counts, or zeros when it has
    no stored report.
  */
  lemma LatestOfAggregate(selected: seq<string>, reports: map<string, Report>)
    requires |selected| > 0 && AllMonthLabels(selected)
    requires Aggregate(selected, reports).Success?
    requires forall m :: m in selected && m in reports ==> |reports[m].trends.tcm| == 1 && |reports[m].trends.sxh| == 1
    ensures var t := Aggregate(selected, reports).value.trends; var l := Latest(selected);
      LatestMonthData(t.labels, t.tcm, t.sxh, selected)
        == if l in reports then LatestCounts(reports[l].trends.tcm[0], reports[l].trends.sxh[0]) else LatestCounts(0, 0)
  {
    var t := Aggregate(selected, reports).value.trends;
    var l := Latest(selected);
    LatestMonthIsLatest(selected);
    AggregateLabels(selected, reports);
    if l in reports {
      StoredLatest(selected, reports, l);
    } else {
      assert l !in t.labels;
    }
  }

  lemma StoredLatest(selected: seq<string>, reports: map<string, Report>, l: string)
    requires Aggregate(selected, reports).Success?
    requires forall m :: m in selected && m in reports ==> |reports[m].trends.tcm| == 1 && |reports[m].trends.sxh| == 1
    requires LatestMonth(selected) == Some(l) && l in Aggregate(selected, reports).value.trends.labels
    ensures var t := Aggregate(selected, reports).value.trends;
      l in reports && LatestMonthData(t.labels, t.tcm, t.sxh, selected) == LatestCounts(reports[l].trends.tcm[0], reports[l].trends.sxh[0])
  {
    var sorted := SortByMonth(selected);
    var t := Aggregate(selected, reports).value.trends;
    var i := IndexOf(t.labels, l).value;
    assert LatestMonthData(t.labels, t.tcm, t.sxh, selected) == LatestCounts(EntryOrZero(t.tcm, i), EntryOrZero(t.sxh, i));
    AggregateTrends(selected, reports);
    assert t.tcm == t.Series(Tcm) && t.sxh == t.Series(Sxh);
    SortByMonthMembers(selected);
    SingleEntry(sorted, reports, Tcm, i);
    SingleEntry(sorted, reports, Sxh, i);
  }

  /** Where every stored month holds one entry, position `i` of a series is the `i`-th found month's entry. */
  lemma SingleEntry(months: seq<string>, reports: map<string, Report>, d: Disease, i: nat)
    requires forall m :: m in months && m in reports ==> |reports[m].Series(d)| == 1
    requires i < |Found(months, reports)|
    ensures Found(months, reports)[i] in reports
    ensures EntryOrZero(Concat(months, reports, d), i) == reports[Found(months, reports)[i]].Series(d)[0]
  {
    ConcatOfSingles(months, reports, d);
  }

  /** The doughnut's legend, from the last composition entry to the first. */
  const DoughnutLabels: seq<string> := ["Sởi & nghi Sởi", "Tay chân miệng", "Sốt xuất huyết"]

  /** The doughnut's values: the composition entries in reverse index order. */
  function DoughnutData(c: Composition): (r: seq<Option<int>>)
    ensures |r| == 3
    ensures forall d: Disease :: r[2 - d.Index()] == EntryAt(c.data, d.Index())
  {
    [EntryAt(c.data, 2), EntryAt(c.data, 1), EntryAt(c.data, 0)]
  }

  /** Each doughnut slice carries the legend entry of the disease whose count it shows. */
  lemma DoughnutLabelsMatch()
    ensures DoughnutLabels[2 - Sxh.Index()] == CompositionLabels[Sxh.Index()]
    ensures DoughnutLabels[2 - Tcm.Index()] == CompositionLabels[Tcm.Index()]
    ensures DoughnutLabels[2 - Soi.Index()] == CompositionLabels[Soi.Index()] + " & nghi Sởi"
  {
  }

  /** Over the page's aggregate every slice is present and is its disease's summed composition entry. */
  lemma DoughnutOfAggregate(selected: seq<string>, reports: map<string, Report>, d: Disease)
    requires Aggregate(selected, reports).Success?
    ensures DoughnutData(Aggregate(selected, reports).value.composition)[2 - d.Index()]
            == Some(CompositionTotal(SortByMonth(selected), reports, d))
  {
    AggregateComposition(selected, reports);
  }

  /** The hotspot card is rendered exactly when there is a latest month to show. */
  function HotspotVisible(selected: seq<string>): (r: bool)
    ensures r <==> LatestMonth(selected).Some?
  {
    |selected| > 0
  }
}

=== FILE: months.dfy ===
/**
  Month labels "Tháng N" and the comparator the dashboard sorts them with
  (src/app/page.tsx:49-53, repeated at :131-135 and in the infographic).
  The comparator orders by the number after the prefix, not lexically.
*/
module Months {
  import opened Wrappers
  import opened Decimal

  const Prefix: string := "Tháng "

  /** The label the admin form offers for month `n`. */
  function MonthLabel(n: nat): string {
    Prefix + Show(n)
  }

  /** The number after the prefix, when the label is the prefix followed by digits. */
  function MonthNumber(name: string): Option<nat> {
    if |name| >= |Prefix| && name[..|Prefix|] == Prefix then ParseNat(name[|Prefix|..]) else None
  }

  /** The prefix followed by at least one digit and nothing else. */
  predicate Numbered(name: string) {
    |name| > |Prefix| && name[..|Prefix|] == Prefix && AllDigits(name[|Prefix|..])
  }

  /**
    The sort key the comparator computes: `parseInt` of the label with the
    prefix removed. On a numbered label it is the number the digits spell,
    leading zeros included, as in the source. Every other label gets 0 here,
    and there the source differs: `replace` drops the first occurrence of the
    prefix wherever it is, and `parseInt` skips leading spaces, reads a sign
    and stops at the first non-digit ("Tháng 3a" gives 3, "Tháng -3" gives
    -3), giving NaN only when no digit comes first.
  */
  function Key(name: string): (r: int)
    ensures Numbered(name) ==> ParseNat(name[|Prefix|..]) == Some(r)
    ensures !Numbered(name) ==> r == 0
  {
    match MonthNumber(name)
    case Some(n) => n
    case None => 0
  }

  /** A label exactly as the admin form writes it, for a month 1..12. */
  predicate IsMonthLabel(s: string) {
    1 <= Key(s) <= 12 && s == MonthLabel(Key(s))
  }

  predicate AllMonthLabels(s: seq<string>) {
    forall i :: 0 <= i < |s| ==> IsMonthLabel(s[i])
  }

  /** Every label the admin form produces is well formed and keyed by its month. */
  lemma MonthLabelKey(n: nat)
    requires 1 <= n <= 12
    ensures Key(MonthLabel(n)) == n
    ensures IsMonthLabel(MonthLabel(n))
  {
    var s := MonthLabel(n);
    assert s[..|Prefix|] == Prefix;
    assert s[|Prefix|..] == Show(n);
    ParseShow(n);
  }

  // The sort and its lemmas take the key as a parameter, so that their proofs
  // never look inside the label parser; the page instantiates them with `Key`.

  /** Ascending by `key`, as the comparator `monthA - monthB` orders them. */
  predicate SortedBy(key: string -> int, s: seq<string>) {
    forall i, j :: 0 <= i < j < |s| ==> key(s[i]) <= key(s[j])
  }

  /** Places `x` before the first element with a larger or equal key. */
  function Insert(key: string -> int, x: string, s: seq<string>): (r: seq<string>)
    requires SortedBy(key, s)
    ensures SortedBy(key, r)
    ensures multiset(r) == multiset(s) + multiset{x}
    decreases |s|
  {
    if |s| == 0 then [x]
    else if key(x) <= key(s[0]) then [x] + s
    else
      var tail := Insert(key, x, s[1..]);
      InsertBehind(key, x, s, tail);
      [s[0]] + tail
  }

  /** Keeping the head in front of the insertion into the rest keeps the order and the elements. */
  lemma InsertBehind(key: string -> int, x: string, s: seq<string>, tail: seq<string>)
    requires |s| > 0 && SortedBy(key, s) && key(s[0]) < key(x)
    requires SortedBy(key, tail) && multiset(tail) == multiset(s[1..]) + multiset{x}
    ensures SortedBy(key, [s[0]] + tail)
    ensures multiset([s[0]] + tail) == multiset(s) + multiset{x}
  {
    assert s == [s[0]] + s[1..];
    forall y | y in tail ensures key(s[0]) <= key(y) {
      assert y in multiset(tail);
      if y != x {
        assert y in multiset(s[1..]);
        var k :| 0 <= k < |s[1..]| && s[1..][k] == y;
        assert s[k + 1] == y;
      }
    }
    var r := [s[0]] + tail;
    forall i, j | 0 <= i < j < |r| ensures key(r[i]) <= key(r[j]) {
      assert r[j] == tail[j - 1] && r[j] in tail;
      if i > 0 {
        assert r[i] == tail[i - 1];
      }
    }
  }

  /** A stable insertion sort by `key`: elements with equal keys keep their input order. */
  function SortBy(key: string -> int, s: seq<string>): (r: seq<string>)
    ensures SortedBy(key, r)
    ensures multiset(r) == multiset(s)
    decreases |s|
  {
    if |s| == 0 then []
    else
      assert s == [s[0]] + s[1..];
      Insert(key, s[0], SortBy(key, s[1..]))
  }

  /** The elements of `s` whose key is `k`, in their order in `s`. */
  function WithKey(key: string -> int, k: int, s: seq<string>): seq<string>
    decreases |s|
  {
    if |s| == 0 then []
    else (if key(s[0]) == k then [s[0]] else []) + WithKey(key, k, s[1..])
  }

  /** Filtering a sequence with a given head filters the head, then the rest. */
  lemma WithKeyCons(key: string -> int, k: int, a: string, t: seq<string>)
    ensures WithKey(key, k, [a] + t) == (if key(a) == k then [a] else []) + WithKey(key, k, t)
  {
    assert ([a] + t)[1..] == t;
  }

  /** Inserting `x` puts it in front of every element with its key. */
  lemma {:induction false} InsertWithKey(key: string -> int, k: int, x: string, s: seq<string>)
    requires SortedBy(key, s)
    ensures WithKey(key, k, Insert(key, x, s)) == (if key(x) == k then [x] else []) + WithKey(key, k, s)
    decreases |s|
  {
    if |s| == 0 || key(x) <= key(s[0]) {
      InsertFront(key, x, s);
      WithKeyCons(key, k, x, s);
    } else {
      var rest := s[1..];
      SortedRest(key, s);
      InsertBehindHead(key, x, s);
      InsertWithKey(key, k, x, rest);
      assert s == [s[0]] + rest;
      PassSmaller(key, k, x, s[0], rest, Insert(key, x, rest));
    }
  }

  lemma SortedRest(key: string -> int, s: seq<string>)
    requires |s| > 0 && SortedBy(key, s)
    ensures SortedBy(key, s[1..])
  {
  }

  /** `x` goes in front when no element has a smaller key than its own at the head. */
  lemma InsertFront(key: string -> int, x: string, s: seq<string>)
    requires SortedBy(key, s)
    requires |s| == 0 || key(x) <= key(s[0])
    ensures Insert(key, x, s) == [x] + s
  {
  }

  /** `x` goes behind a head of smaller key. */
  lemma InsertBehindHead(key: string -> int, x: string, s: seq<string>)
    requires SortedBy(key, s)
    requires |s| > 0 && key(s[0]) < key(x)
    ensures SortedBy(key, s[1..])
    ensures Insert(key, x, s) == [s[0]] + Insert(key, x, s[1..])
  {
  }

  /** An element of smaller key than `x` stays in front of it without changing what `x`'s key selects. */
  lemma PassSmaller(key: string -> int, k: int, x: string, y: string, rest: seq<string>, tail: seq<string>)
    requires key(y) < key(x)
    requires WithKey(key, k, tail) == (if key(x) == k then [x] else []) + WithKey(key, k, rest)
    ensures WithKey(key, k, [y] + tail) == (if key(x) == k then [x] else []) + WithKey(key, k, [y] + rest)
  {
    WithKeyCons(key, k, y, tail);
    WithKeyCons(key, k, y, rest);
    Interchange(if key(y) == k then [y] else [], if key(x) == k then [x] else [], WithKey(key, k, rest));
  }

  /** When one of two pieces is empty, their order in front of a sequence does not matter. */
  lemma Interchange(a: seq<string>, b: seq<string>, t: seq<string>)
    requires a == [] || b == []
    ensures a + (b + t) == b + (a + t)
  {
    if a == [] {
      assert a + (b + t) == b + t == b + (a + t);
    } else {
      assert a + (b + t) == a + t == b + (a + t);
    }
  }

  /**
    The sort is stable: for every key, the elements with that key appear in
    the result in the order they had in the input.
  */
  lemma {:induction false} SortByStable(key: string -> int, k: int, s: seq<string>)
    ensures WithKey(key, k, SortBy(key, s)) == WithKey(key, k, s)
    decreases |s|
  {
    if |s| > 0 {
      SortByStable(key, k, s[1..]);
      InsertWithKey(key, k, s[0], SortBy(key, s[1..]));
    }
  }

  /** Within `s`, labels with the same key are the same label. */
  predicate KeysDistinguish(key: string -> int, s: seq<string>) {
    forall i, j :: 0 <= i < |s| && 0 <= j < |s| && key(s[i]) == key(s[j]) ==> s[i] == s[j]
  }

  /** Sorted arrangements of the same labels start with the same label when keys tell labels apart. */
  lemma SortedHeadsAgree(key: string -> int, a: seq<string>, b: seq<string>)
    requires |a| > 0
    requires KeysDistinguish(key, a)
    requires SortedBy(key, a) && SortedBy(key, b)
    requires multiset(a) == multiset(b)
    ensures |b| > 0 && a[0] == b[0]
  {
    assert a[0] in multiset(b);
    var j :| 0 <= j < |b| && b[j] == a[0];
    assert b[0] in multiset(a);
    var k :| 0 <= k < |a| && a[k] == b[0];
    assert key(a[0]) <= key(a[k]);
    assert key(b[0]) <= key(b[j]);
  }

  /** Dropping the first element keeps a sequence sorted and its labels told apart. */
  lemma TailOfSorted(key: string -> int, a: seq<string>)
    requires |a| > 0
    ensures SortedBy(key, a) ==> SortedBy(key, a[1..])
    ensures KeysDistinguish(key, a) ==> KeysDistinguish(key, a[1..])
  {
    if KeysDistinguish(key, a) {
      forall i, j | 0 <= i < |a[1..]| && 0 <= j < |a[1..]| && key(a[1..][i]) == key(a[1..][j])
        ensures a[1..][i] == a[1..][j]
      {
        assert a[1..][i] == a[i + 1] && a[1..][j] == a[j + 1];
      }
    }
    if SortedBy(key, a) {
      forall i, j | 0 <= i < j < |a[1..]| ensures key(a[1..][i]) <= key(a[1..][j]) {
        assert a[1..][i] == a[i + 1] && a[1..][j] == a[j + 1];
      }
    }
  }

  /** Two sorted arrangements of the same labels are the same sequence when keys tell labels apart. */
  lemma {:induction false} SortedPermutationUnique(key: string -> int, a: seq<string>, b: seq<string>)
    requires KeysDistinguish(key, a)
    requires SortedBy(key, a) && SortedBy(key, b)
    requires multiset(a) == multiset(b)
    ensures a == b
    decreases |a|
  {
    if |a| == 0 {
      assert |multiset(b)| == 0;
    } else {
      SortedHeadsAgree(key, a, b);
      TailOfSorted(key, a);
      TailOfSorted(key, b);
      assert a == [a[0]] + a[1..];
      assert b == [b[0]] + b[1..];
      assert multiset(a[1..]) == multiset(a) - multiset{a[0]};
      assert multiset(b[1..]) == multiset(b) - multiset{b[0]};
      SortedPermutationUnique(key, a[1..], b[1..]);
    }
  }

  /** Keys that tell the labels of `a` apart also tell apart those of any rearrangement. */
  lemma KeysDistinguishPermutation(key: string -> int, a: seq<string>, b: seq<string>)
    requires KeysDistinguish(key, a)
    requires multiset(a) == multiset(b)
    ensures KeysDistinguish(key, b)
  {
    forall i, j | 0 <= i < |b| && 0 <= j < |b| && key(b[i]) == key(b[j]) ensures b[i] == b[j] {
      assert b[i] in multiset(a) && b[j] in multiset(a);
      var i' :| 0 <= i' < |a| && a[i'] == b[i];
      var j' :| 0 <= j' < |a| && a[j'] == b[j];
    }
  }

  /** The month order of the page: ascending by the number in the label. */
  predicate SortedByMonth(s: seq<string>) {
    SortedBy(Key, s)
  }

  /** A sorted copy of the selection, as the page's in-place sort leaves it. */
  function SortByMonth(s: seq<string>): (r: seq<string>)
    ensures SortedByMonth(r)
    ensures multiset(r) == multiset(s)
  {
    SortBy(Key, s)
  }

  /** Sorting keeps exactly the selected labels. */
  lemma SortByMonthMembers(s: seq<string>)
    ensures forall m :: m in SortByMonth(s) <==> m in s
  {
    var r := SortByMonth(s);
    forall m ensures m in r <==> m in s {
      assert m in r <==> m in multiset(r);
      assert m in s <==> m in multiset(s);
    }
  }

  /** Well-formed labels are told apart by their keys. */
  lemma MonthLabelsDistinguish(s: seq<string>)
    requires AllMonthLabels(s)
    ensures KeysDistinguish(Key, s)
  {
    forall i, j | 0 <= i < |s| && 0 <= j < |s| && Key(s[i]) == Key(s[j]) ensures s[i] == s[j] {
      assert IsMonthLabel(s[i]) && IsMonthLabel(s[j]);
    }
  }

  /** Sorting well-formed labels does not depend on the order they were selected in. */
  lemma SortOrderIndependent(a: seq<string>, b: seq<string>)
    requires AllMonthLabels(a)
    requires multiset(a) == multiset(b)
    ensures SortByMonth(a) == SortByMonth(b)
  {
    var sa, sb := SortByMonth(a), SortByMonth(b);
    MonthLabelsDistinguish(a);
    KeysDistinguishPermutation(Key, a, sa);
    SortedPermutationUnique(Key, sa, sb);
  }

  /** The selected label with the smallest key; the first one on a tie. */
  function Earliest(s: seq<string>): (m: string)
    requires |s| > 0
    ensures m in s
    ensures forall x :: x in s ==> Key(m) <= Key(x)
    decreases |s|
  {
    if |s| == 1 then s[0]
    else
      var rest := Earliest(s[1..]);
      assert forall x :: x in s ==> x == s[0] || x in s[1..];
      if Key(s[0]) <= Key(rest) then s[0] else rest
  }

  /** The selected label with the largest key; the first one on a tie. */
  function Latest(s: seq<string>): (m: string)
    requires |s| > 0
    ensures m in s
    ensures forall x :: x in s ==> Key(x) <= Key(m)
    decreases |s|
  {
    if |s| == 1 then s[0]
    else
      var rest := Latest(s[1..]);
      assert forall x :: x in s ==> x == s[0] || x in s[1..];
      if Key(rest) <= Key(s[0]) then s[0] else rest
  }

  /** In a sorted arrangement with distinguishing keys, an element of least key is the first. */
  lemma SortedFirstIsLeast(key: string -> int, r: seq<string>, e: string)
    requires SortedBy(key, r) && KeysDistinguish(key, r)
    requires e in r && forall x :: x in r ==> key(e) <= key(x)
    ensures r[0] == e
  {
    var i :| 0 <= i < |r| && r[i] == e;
    assert key(r[0]) <= key(r[i]);
  }

  /** In a sorted arrangement with distinguishing keys, an element of greatest key is the last. */
  lemma SortedLastIsGreatest(key: string -> int, r: seq<string>, l: string)
    requires SortedBy(key, r) && KeysDistinguish(key, r)
    requires l in r && forall x :: x in r ==> key(x) <= key(l)
    ensures r[|r| - 1] == l
  {
    var i :| 0 <= i < |r| && r[i] == l;
    assert key(r[i]) <= key(r[|r| - 1]);
  }

  /** The sorted selection starts with its earliest month, however the months were selected. */
  lemma SortedStartsEarliest(s: seq<string>)
    requires |s| > 0
    requires AllMonthLabels(s)
    ensures |SortByMonth(s)| == |s|
    ensures SortByMonth(s)[0] == Earliest(s)
  {
    var r := SortByMonth(s);
    SortedLength(s);
    MonthLabelsDistinguish(s);
    KeysDistinguishPermutation(Key, s, r);
    SortByMonthMembers(s);
    SortedFirstIsLeast(Key, r, Earliest(s));
  }

  /** The sorted selection ends with its latest month, however the months were selected. */
  lemma SortedEndsLatest(s: seq<string>)
    requires |s| > 0
    requires AllMonthLabels(s)
    ensures |SortByMonth(s)| == |s|
    ensures SortByMonth(s)[|s| - 1] == Latest(s)
  {
    var r := SortByMonth(s);
    SortedLength(s);
    MonthLabelsDistinguish(s);
    KeysDistinguishPermutation(Key, s, r);
    SortByMonthMembers(s);
    SortedLastIsGreatest(Key, r, Latest(s));
  }

  /** Sorting keeps the number of selected labels. */
  lemma SortedLength(s: seq<string>)
    ensures |SortByMonth(s)| == |s|
  {
    var r := SortByMonth(s);
    assert |r| == |multiset(r)| == |multiset(s)| == |s|;
  }
}

=== FILE: report_data.dfy ===
/**
  The monthly report record (src/types/report-data.ts) and the loosely shaped
  object that a JSON parse of the model's answer yields before default filling.
  Counts are unbounded integers; the two accident percentages are reals.
*/
module ReportData {
  import opened Wrappers

  /** The three tracked diseases, in the order of the composition arrays. */
  datatype Disease = Sxh | Tcm | Soi {
    /** Position of the disease in `composition.data`. */
    function Index(): nat {
      match this
      case Sxh => 0
      case Tcm => 1
      case Soi => 2
    }
  }

  /** The fixed names of `composition.labels`, indexed like `composition.data`. */
  const CompositionLabels: seq<string> := ["Sốt xuất huyết", "Tay chân miệng", "Sởi"]

  /** One series per disease plus five extended series, parallel to `labels`. */
  datatype Trends = Trends(
    labels: seq<string>,
    sxh: seq<int>,
    tcm: seq<int>,
    soi: seq<int>,
    dauMuaKhi: seq<int>,
    bachHau: seq<int>,
    sars: seq<int>,
    cumAH5N1: seq<int>,
    cumAH1N1: seq<int>)

  datatype Composition = Composition(labels: seq<string>, data: seq<int>)

  /**
    Headline counts. The extraction step never fills a count the model left out,
    so a stored count may be absent; `tongKham` is the display string.
  */
  datatype Highlights = Highlights(
    tongKham: string,
    tongKhamSo: Option<int>,
    khamNoiTru: Option<int>,
    tieuChay: Option<int>,
    hiv: Option<int>,
    naoMoCau: Option<int>)

  datatype TrafficAccidents = TrafficAccidents(
    total: int,
    localCases: int,
    localPercentage: real,
    alcoholCases: int,
    alcoholPercentage: real)

  datatype OccupationalAccidents = OccupationalAccidents(total: int, injuries: int, deaths: int)

  datatype Accidents = Accidents(trafficAccidents: TrafficAccidents, occupationalAccidents: OccupationalAccidents)

  datatype AdditionalDiseases = AdditionalDiseases(
    dauMuaKhi: int,
    bachHau: int,
    sars: int,
    cumAH5N1: int,
    cumAH1N1: int)

  /**
    A stored month. `composition` stays optional because extraction passes it
    through untouched; every other top-level field is present after extraction.
  */
  datatype Report = Report(
    trends: Trends,
    composition: Option<Composition>,
    highlights: Highlights,
    accidents: Accidents,
    additionalDiseases: AdditionalDiseases)
  {
    /** The series of one of the three tracked diseases. */
    function Series(d: Disease): seq<int> {
      match d
      case Sxh => trends.sxh
      case Tcm => trends.tcm
      case Soi => trends.soi
    }
  }

  /** `trends` as parsed: the five extended series may be missing. */
  datatype PartialTrends = PartialTrends(
    labels: seq<string>,
    sxh: seq<int>,
    tcm: seq<int>,
    soi: seq<int>,
    dauMuaKhi: Option<seq<int>>,
    bachHau: Option<seq<int>>,
    sars: Option<seq<int>>,
    cumAH5N1: Option<seq<int>>,
    cumAH1N1: Option<seq<int>>)

  /** The parsed JSON object: every top-level field may be missing (or null). */
  datatype PartialReport = PartialReport(
    trends: Option<PartialTrends>,
    composition: Option<Composition>,
    highlights: Option<Highlights>,
    accidents: Option<Accidents>,
    additionalDiseases: Option<AdditionalDiseases>)

  const ZeroHighlights := Highlights("", Some(0), Some(0), Some(0), Some(0), Some(0))

  const ZeroAccidents := Accidents(TrafficAccidents(0, 0, 0.0, 0, 0.0), OccupationalAccidents(0, 0, 0))

  const ZeroAdditionalDiseases := AdditionalDiseases(0, 0, 0, 0, 0)

  /** The series a default fills in for a missing extended trend. */
  const ZeroSeries: seq<int> := [0]
}

=== FILE: wrappers.dfy ===
/** Optional values and results with an error, shared by every module. */
module Wrappers {

  /** A value that may be absent: a missing JSON field, an index past the end of an array. */
  datatype Option<+T> = None | Some(value: T) {

    /** The value, or `default` when absent. */
    function GetOr(default: T): T {
      match this
      case Some(v) => v
      case None => default
    }
  }

  /** The outcome of an operation that can throw: a value, or the error it raised. */
  datatype Result<+R, +E> = Success(value: R) | Failure(error: E)
}
